=== FILE: README.md ===
# AdvPhotoSync core in Dafny

AdvPhotoSync mirrors a tree of high-resolution photographs into a tree of
low-resolution copies. A sync run has three stages, which the program runs on
three threads:

- a walker (`AnalyseFolder`) finds one folder unit per source directory that
  holds `.jpg` files, and hands each to the UI dispatcher, which adds it to
  `Folders` later;
- a scheduler (`ScheduleWork`) takes the first `Pending` unit and marks it
  `Working`. It creates the mirrored target directory, or deletes the target
  files that no longer have a source. Then it queues one work item per JPEG
  file;
- an engine (`RunWork`) dequeues the items. It either counts an item done at
  once (the target exists and `SkipExisting` is set) or hands it to a task.
  The task runs the external resizer and then counts the item done
  (`AddOneDone`), unless the conversion throws.

A separate `MetaRetriever` reads the EXIF/TIFF property items of a photograph
into a photo record.

This project models these stages as pure functions over immutable data:

- the directory tree is a `Dir` value;
- the folder collection is a `seq<ConvertFolder>`;
- a work item refers to its folder by index;
- filesystem effects are `FsAction` values the model emits rather than
  performs;
- the files whose conversion throws are a parameter of the engine;
- the image decoder's output (size and property items) is an input.

.NET exceptions become `Failure` results:

- `String.Replace` with an empty old value;
- the `DirectoryInfo` or `FileInfo` constructor on the empty path that the
  replacement yields when the target root is empty and the path is the
  source root itself;
- `GetString`, `ToInt16` or `ToUInt32` on a value that is too short.

`null` is `None`.

Some facts about the code that the model keeps:

- deletion compares the full file `Name`, extension included;
- there are four statuses (`Pending`, `Working`, `Done`, `Error`), and nothing
  sets `Error`;
- the walk neither deletes target subfolders nor prunes orphaned target
  directories;
- when the scheduler returns because of a cancel seen after reconciliation, it
  leaves `_hasScheduleDone` unset (phase `Aborted`, distinct from `Finished`);
- when the walk published nothing, `ScheduleWork` clears `IsSyncing` itself
  (line 214) and returns before creating the work queue;
- `DoSync` never clears `_isCanceling`;
- nothing catches an exception on the three thread-pool threads, so a throw
  there (phase `Faulted` of the scheduler) ends the process under .NET's
  default policy.

Modules, in dependency order:

- `Wrappers`: `Option` and `Result`.
- `Text`: ASCII case-insensitive equality, `TrimEnd`, `Replace`, `Path.GetExtension`.
- `Seqs`: first match and filtering.
- `FileTree`: the directory listing and the JPEG filter.
- `Folders`: `ConvertStatus`, `ConvertFolder`, `WorkItem`, `GetNextFolder`, `AddOneDone`.
- `Analysis`: the walk, and its equality with a pre-order reference walk.
- `Scheduling`: path mapping, `DeleteTargetOnlyFiles` and the scheduling loop.
- `SchedulingRun`: the loop run to its end without cancellation.
- `Execution`: `ConvertFile`, one engine step and the FIFO drain.
- `Sync`: the three stages composed.
- `Bytes`: little-endian decoding as `BitConverter` does it.
- `Meta`: `MetaRetriever`.
- `ScannerRace`: walker, dispatcher and scheduler interleaved.
- `EngineLoop`: the waits of `RunWork` once the scheduler has returned.
- `Session`: the Sync button across the runs of one session.

Cancellation is a checkpoint number at which `_isCanceling` becomes set. Pass
`n` of the scheduling loop reads the flag at checkpoint `2n` (loop condition)
and at `2n + 1` (after reconciliation).

## Model

| member | source | states |
|---|---|---|
| Text.TrimEnd | LowResPhoto/MainViewModel.cs:187-188 | the trimmed root is a prefix of the root, does not end in `\`, and only `\` characters were removed |
| Text.TrimEndUnique | LowResPhoto/MainViewModel.cs:187-188 | any prefix with those three properties is the trimmed root, so the three properties define `TrimEnd` |
| Text.TrimEndIdempotent | LowResPhoto/MainViewModel.cs:187-188 | trimming an already trimmed root changes nothing, so a second sync sees the same roots |
| Text.Replace | LowResPhoto/MainViewModel.cs:226 | `String.Replace` fails exactly when the old value is empty |
| Text.ReplaceRootPrefix | LowResPhoto/MainViewModel.cs:226 | when the root occurs in a path only as its prefix, replacing it gives the new root followed by the unchanged rest |
| Text.ReplaceAbsent | LowResPhoto/MainViewModel.cs:266 | a string in which the old value does not occur comes back unchanged |
| Text.ReplaceAllNonEmpty | LowResPhoto/MainViewModel.cs:226 | replacing with a non-empty value in a non-empty string never gives the empty string |
| Text.Extension | LowResPhoto/MainViewModel.cs:326 | the extension is empty exactly when the name has no '.' or ends in '.'; otherwise it is the suffix from the last '.', with at least one more character and no other '.' |
| Text.EqualsIgnoreCase | LowResPhoto/MainViewModel.cs:246 | the name comparison (also the extension test at line 326): equal lengths and equal characters after upper-casing ASCII letters |
| Text.EqualsIgnoreCaseIsEquivalence | LowResPhoto/MainViewModel.cs:246 | the case-insensitive name comparison is reflexive, symmetric and transitive |
| FileTree.JpegFiles | LowResPhoto/MainViewModel.cs:326 | a file is kept exactly when it is in the listing and its extension is `.jpg` in any case |
| FileTree.IsJpegBySuffix | LowResPhoto/MainViewModel.cs:326 | the extension test holds exactly when the name is at least 4 characters long and ends in `.jpg` in any case |
| Folders.GetNextFolder | LowResPhoto/MainViewModel.cs:315-318 | the pick is `Pending` and every earlier folder is not; there is no pick exactly when no folder is `Pending` |
| Folders.NextPickIsLater | LowResPhoto/MainViewModel.cs:219-225 | once the picked folder has left `Pending` and no folder has become `Pending` again, the next pick lies strictly later |
| Folders.AddOneDone | LowResPhoto/MainViewModel.cs:286-294 | the done count rises by exactly one and every other field but status stays the same; the status becomes `Done` if the total is reached, and is unchanged otherwise |
| Folders.AddOneDoneNeverPending | LowResPhoto/MainViewModel.cs:286-294 | progress never returns a folder to `Pending` |
| Folders.AddDoneReachesDone | LowResPhoto/MainViewModel.cs:286-294 | a `Working` folder with nothing done is `Done` exactly after at least one and at least `CountAll` completions, and `Working` before that |
| Folders.CompleteItem | LowResPhoto/MainViewModel.cs:288-292 | completing an item changes only its own folder, and creates no new `Pending` folder |
| Folders.NoNewPendingTransitive | LowResPhoto/MainViewModel.cs:225 | "never back to `Pending`" holds across any chain of steps |
| Analysis.AnalyseFolder | LowResPhoto/MainViewModel.cs:320-343 | every unit is `Pending`, counts its JPEG files (at least one), has nothing done or deleted and holds only JPEG files; a directory with JPEG files publishes its own unit first |
| Analysis.UnitFor | LowResPhoto/MainViewModel.cs:326-329 | the unit of a directory has its full name and its JPEG files in listing order, and is a fresh unit exactly when the directory holds a JPEG file |
| Analysis.AnalyseChildren | LowResPhoto/MainViewModel.cs:336-342 | the units from the subdirectories are all fresh units |
| Analysis.AnalyseIsPreOrder | LowResPhoto/MainViewModel.cs:320-343 | the walk publishes exactly the units of the directories with JPEG files, in depth-first pre-order |
| Analysis.UnitsOfMembership | LowResPhoto/MainViewModel.cs:324-329 | a unit is published exactly when some directory with JPEG files produces it |
| Scheduling.MapToTarget | LowResPhoto/MainViewModel.cs:226 | mapping a path fails exactly when the source root is empty or the replacement yields the empty path; otherwise it is the non-empty replacement result |
| Scheduling.MapToTargetDefined | LowResPhoto/MainViewModel.cs:226 | with both roots non-empty, every non-empty path maps |
| Scheduling.MapToTargetBelowRoot | LowResPhoto/MainViewModel.cs:226 | a path below the source root maps to the target root followed by the same relative path, and fails exactly when that is empty |
| Scheduling.UnmatchedRootMapsToSource | LowResPhoto/MainViewModel.cs:226 | a path in which the source root's text does not occur maps to itself, so the target is the source |
| Scheduling.DeleteTargetOnlyFiles | LowResPhoto/MainViewModel.cs:243-252 | a target file is deleted exactly when no source JPEG has its name ignoring case; every file kept has a match; `CountDelete` is the number deleted and nothing else on the folder changes |
| Scheduling.DeletionKeepsListingOrder | LowResPhoto/MainViewModel.cs:246 | the deletion list follows the listing order, so reconciling a listing in two parts concatenates the two lists |
| Scheduling.DeletionCountComplement | LowResPhoto/MainViewModel.cs:246-247 | `CountDelete` plus the number of matching files is the listing's length |
| Scheduling.DeleteActions | LowResPhoto/MainViewModel.cs:248-251 | one deletion per file to delete, in list order |
| Scheduling.ItemsFor | LowResPhoto/MainViewModel.cs:235-238 | exactly one work item per JPEG file, in file order, each pointing at the folder |
| Scheduling.StartSchedule | LowResPhoto/MainViewModel.cs:212-217 | the run ends at once exactly when the walk published nothing; otherwise the queue starts empty and the loop runs |
| Scheduling.ScheduleIteration | LowResPhoto/MainViewModel.cs:219-238 | a cancel at the loop top, or no `Pending` folder, ends the loop normally. Otherwise the first `Pending` folder becomes `Working` and no other folder changes. The pass faults exactly when its path cannot be mapped. The target is created, or its target-only files are deleted and counted. A cancel after reconciliation enqueues nothing; otherwise the queue grows by exactly that folder's items |
| Scheduling.ScheduleRun | LowResPhoto/MainViewModel.cs:219-240 | the loop always ends, and no folder that left `Pending` is `Pending` again |
| Scheduling.PickedAtMostOnce | LowResPhoto/MainViewModel.cs:219-239 | whatever progress the engine makes, the pick after a pass lies strictly after that pass's folder, so no folder is scheduled twice |
| Scheduling.PendingCountDrops | LowResPhoto/MainViewModel.cs:225 | taking a folder out of `Pending` lowers the number of `Pending` folders by one |
| SchedulingRun.RunFromPrefix | LowResPhoto/MainViewModel.cs:219-240 | from any point where the first `m` units are taken, and every unit's path maps, the loop takes the rest in order and ends normally |
| SchedulingRun.ScheduleAllWithoutCancel | LowResPhoto/MainViewModel.cs:219-240 | without cancel, and with every unit's path mapping, every unit is taken once and in order, left `Working` with its counts, and the queue is every unit's items, unit after unit |
| Execution.ConvertFile | LowResPhoto/MainViewModel.cs:301-313 | a cancelled conversion does nothing. Otherwise it issues exactly one deletion of the target when the target exists and none otherwise, then exactly one resizer call on the source and target, last |
| Execution.Throws | LowResPhoto/MainViewModel.cs:267-280 | an item's task throws when its path maps, its target does not both exist and get skipped, no cancel is seen, and its conversion fails |
| Execution.RunItem | LowResPhoto/MainViewModel.cs:263-281 | the step fails exactly when the item's path cannot be mapped. An item whose target exists while `SkipExisting` is set is counted done and issues no action. An item whose task throws leaves the folders unchanged, issues no action and keeps its running slot. Any other item is counted done and issues exactly the actions of `ConvertFile` for the mapped target |
| Execution.UnmatchedRootDeletesSource | LowResPhoto/MainViewModel.cs:266-278 | when the root's text does not occur in a photograph's path and `SkipExisting` is off, the engine deletes the source photograph and runs the resizer on it as its own target |
| Execution.ThrownFor | LowResPhoto/MainViewModel.cs:274-280 | a folder never has more throwing items than items |
| Execution.RunAll | LowResPhoto/MainViewModel.cs:256-284 | draining fails exactly when some item's path cannot be mapped. Each folder gains one completion per item of it whose task does not throw, and keeps its total and files. A folder all of whose items throw is untouched. A folder that completes an item and reaches its total is `Done`, one below its total keeps its status, and none becomes `Pending`. One running slot is lost per throwing item |
| Sync.CountForItemsUpTo | LowResPhoto/MainViewModel.cs:235-238 | the scheduled queue holds, for every unit, exactly as many items as the unit has JPEG files |
| Sync.ItemsUpToFiles | LowResPhoto/MainViewModel.cs:235-238 | every scheduled item names a JPEG file of the unit it points at |
| Sync.NoFailingNoThrow | LowResPhoto/MainViewModel.cs:274-280 | when no queued file's conversion fails, no task throws |
| Sync.ThrowCounted | LowResPhoto/MainViewModel.cs:274-280 | a throwing item counts against its folder and against the total |
| Sync.ScheduledReady | LowResPhoto/MainViewModel.cs:219-240 | after a full schedule each folder has nothing done, at least one file, and as many queued items as its total |
| Sync.DrainCompletes | LowResPhoto/MainViewModel.cs:256-294 | when no conversion throws, draining such a queue leaves every folder `Done` with its done count equal to its total, and no running slot taken |
| Sync.DrainStallsOnThrow | LowResPhoto/MainViewModel.cs:274-294 | when one item's conversion throws, its folder ends below its total in the status it had, and a running slot stays taken |
| Sync.DrainScheduled | LowResPhoto/MainViewModel.cs:219-294 | the scheduler's full result, drained with mappable paths and no throwing conversion, leaves every folder `Done` and full |
| Sync.SyncCompletesEveryFolder | LowResPhoto/MainViewModel.cs:194-200 | a sync that starts with `_isCanceling` clear and is not cancelled, in which every path maps and no conversion throws, ends the scheduler normally and leaves every published folder `Done`, with done count, total and JPEG count all equal |
| Bytes.Int16Le | LowResPhoto/MetaRetriever.cs:73 | the value lies in [-32768, 32767], equals the two bytes modulo 65536, and is negative exactly when the high byte's top bit is set |
| Bytes.Int16RoundTrip | LowResPhoto/MetaRetriever.cs:73 | encoding a 16-bit value and decoding it gives the value back |
| Bytes.Int16BytesRoundTrip | LowResPhoto/MetaRetriever.cs:73 | decoding two bytes and encoding the value gives the bytes back |
| Bytes.UInt16Le | LowResPhoto/MetaRetriever.cs:73 | the unsigned read lies in [0, 65536) and differs from the signed read by exactly 65536 from 32768 on |
| Bytes.UInt32Le | LowResPhoto/MetaRetriever.cs:81-82 | the unsigned 32-bit read lies in [0, 2^32) |
| Bytes.UInt32RoundTrip | LowResPhoto/MetaRetriever.cs:81-82 | encoding a 32-bit word and decoding it gives the word back |
| Bytes.UInt32BytesRoundTrip | LowResPhoto/MetaRetriever.cs:81-82 | decoding four bytes and encoding the word gives the bytes back |
| Meta.GetItemFromId | LowResPhoto/MetaRetriever.cs:53-56 | the result is the first item with the id; there is none exactly when no item has the id |
| Meta.Undecodable | LowResPhoto/MetaRetriever.cs:58-86 | a tag is undecodable when its item is present and too short: a text with `Len` below 1 or above the value's length plus one, a short with fewer than 2 bytes, a rational with fewer than 8 |
| Meta.AsciiDecode | LowResPhoto/MetaRetriever.cs:64 | `ASCIIEncoding.GetString` keeps the length; a byte below 128 is its character and every other byte is '?' |
| Meta.GetStringFromId | LowResPhoto/MetaRetriever.cs:58-65 | absent tag gives none. A bad length throws. Otherwise the text has `Len - 1` characters, which agree with the bytes below 128 |
| Meta.AsciiRoundTrip | LowResPhoto/MetaRetriever.cs:58-65 | an ASCII value stored with its NUL and a count that includes the NUL reads back as the text without the NUL |
| Meta.GetIntFromId | LowResPhoto/MetaRetriever.cs:67-74 | absent tag gives none, fewer than 2 bytes throws, otherwise the value lies in [-32768, 32767] and re-encodes to bytes 0..1 |
| Meta.GetRationalFromId | LowResPhoto/MetaRetriever.cs:76-86 | absent tag gives none and fewer than 8 bytes throws. Otherwise numerator and denominator lie in [0, 2^32) and re-encode to bytes 0..3 and 4..7 |
| Meta.RationalRoundTrip | LowResPhoto/MetaRetriever.cs:76-86 | a rational stored as two little-endian words reads back as the same numerator and denominator |
| Meta.FirstFailureUnrolled | LowResPhoto/MetaRetriever.cs:24-38 | the first failing tag is the first tag, in reading order, whose value cannot be decoded |
| Meta.ReadEquipment | LowResPhoto/MetaRetriever.cs:24-26 | make, model and software hold the decoded strings of tags 0x10F, 0x110 and 0x131, unset exactly when the tag is absent; a failure names the first undecodable tag |
| Meta.ReadExposure | LowResPhoto/MetaRetriever.cs:27-36 | ISO holds the signed read of tag 0x8827, in [-32768, 32767]. Focal length, aperture and shutter hold the rationals of tags 0x920A, 0x9202 and 0x9201. Each is unset exactly when its tag is absent, and a failure names the first undecodable tag |
| Meta.ReadTags | LowResPhoto/MetaRetriever.cs:24-38 | the reads fail exactly when some tag is undecodable, naming the first. Otherwise they are the stage reads, and the date is the decoded string of tag 0x132, unset exactly when the tag is absent |
| Meta.RetrieveFromFile | LowResPhoto/MetaRetriever.cs:16-49 | path, name and size come from the file and the image. Each field holds the decoded value of its own tag and is unset exactly when the tag is absent; ISO is the signed read. The date text is the decoded string of tag 0x132, dropped when empty. A failure names the first undecodable tag |
| Meta.RetrieveFailsOnFirstUndecodable | LowResPhoto/MetaRetriever.cs:24-38 | extraction fails exactly when some tag it reads is undecodable, and reports the first one in reading order |
| Meta.GetShortFromId | LowResPhoto/MetaRetriever.cs:27 | the ISO read as an unsigned SHORT: in [0, 65536), low byte first, with the same absence and failure cases |
| Meta.SignedShortDiffersFromUnsigned | LowResPhoto/MetaRetriever.cs:73 | the signed read equals the unsigned one below 32768; from there on it is 65536 smaller and negative |
| Meta.IsoAbove32767ReadsNegative | LowResPhoto/MetaRetriever.cs:27 | ISO 51200, stored as bytes 00 C8, reads as -14336 signed and 51200 unsigned |
| Meta.RecordedIsoIsNegative | LowResPhoto/MetaRetriever.cs:27 | the photo record of an image with that ISO tag holds ISO -14336 |
| ScannerRace.WalkNext | LowResPhoto/MainViewModel.cs:329-333 | the walk reaching a unit queues its `Add` on the dispatcher and leaves `Folders` as it is |
| ScannerRace.DeliverNext | LowResPhoto/MainViewModel.cs:330-333 | the dispatcher running the oldest queued `Add` appends that unit to `Folders` |
| ScannerRace.PassAsWritten | LowResPhoto/MainViewModel.cs:219 | the loop as written finishes as soon as no unit in `Folders` is `Pending`, even while the walk still runs |
| ScannerRace.PassFlagOnly | LowResPhoto/MainViewModel.cs:197 | a loop that also waits for `_hasAnalyzeDone` finishes only once the walk has returned and no unit is `Pending` |
| ScannerRace.PassCorrected | LowResPhoto/MainViewModel.cs:219 | with the corrected exit test, the loop finishes only when every unit the walk found is in `Folders` and none is `Pending` |
| ScannerRace.CorrectedStepEndsComplete | LowResPhoto/MainViewModel.cs:219-240 | each walk, dispatcher or loop event under the corrected test keeps "finished implies complete" |
| ScannerRace.CorrectedEndsComplete | LowResPhoto/MainViewModel.cs:219-240 | under any interleaving of walk, dispatcher and loop, the corrected loop finishes only after every unit the walk found is in `Folders` and has been taken |
| ScannerRace.AsWrittenLosesLateUnit | LowResPhoto/MainViewModel.cs:208-240 | two passes and then a late unit leave the loop finished with the late unit still `Pending` |
| ScannerRace.FlagOnlyLosesDeferredUnit | LowResPhoto/MainViewModel.cs:196-197 | waiting for `_hasAnalyzeDone` still loses a unit whose `Add` the dispatcher runs after the walk has returned |
| ScannerRace.CorrectedTakesLateUnit | LowResPhoto/MainViewModel.cs:219-240 | the same interleaving under the corrected exit test keeps the loop running, and its next pass takes the late unit |
| EngineLoop.LoopTest | LowResPhoto/MainViewModel.cs:258 | the engine loops while no cancel is requested and the queue is null, non-empty, or the schedule not done |
| EngineLoop.WaitAsWritten | LowResPhoto/MainViewModel.cs:260-261 | the inner wait holds while the queue is null, the running count has reached `Concurrency`, or the queue is empty and the schedule not done; it never reads `_isCanceling` |
| EngineLoop.WaitCorrected | LowResPhoto/MainViewModel.cs:260-261 | the corrected wait: the same test, abandoned once a cancel is requested |
| EngineLoop.SettledAsWritten | LowResPhoto/MainViewModel.cs:212-240 | once the scheduler has returned, `_hasScheduleDone` is set exactly after a normal loop end, the queue is null exactly when nothing was published and no earlier run created one, a cancel return leaves `_isCanceling` set, and every lost slot stays counted as running |
| EngineLoop.LoopEndReleasesEngine | LowResPhoto/MainViewModel.cs:258-283 | after a normal end with a free running slot, the engine leaves its wait and its loop |
| EngineLoop.CancelReturnStrandsEngine | LowResPhoto/MainViewModel.cs:233-234 | after the scheduler's cancel return, an engine waiting on the empty queue waits for ever |
| EngineLoop.NothingPublishedStrandsEngine | LowResPhoto/MainViewModel.cs:212-216 | when the walk published nothing, the engine stays in its wait, and without a cancel its loop does not end during this run |
| EngineLoop.StrandedEngineWakesOnNextRun | LowResPhoto/MainViewModel.cs:258-266 | that stranded engine, with a free slot, leaves its wait once a later run's scheduler has enqueued items, and dequeues them |
| EngineLoop.CancelAtLoopTopReleasesEngine | LowResPhoto/MainViewModel.cs:219-261 | a cancel read by the loop condition ends the scheduling run normally, and the engine with a free slot then ends |
| EngineLoop.CancelAfterReconcileStrandsEngine | LowResPhoto/MainViewModel.cs:233-261 | a cancel first read after reconciliation ends the scheduling run early, and the engine then stays in its wait |
| EngineLoop.ThrownTasksStrandEngine | LowResPhoto/MainViewModel.cs:260-280 | once the drained queue held at least `Concurrency` items whose conversion throws, the engine never ends, whichever way the scheduler returned |
| EngineLoop.SlotsExhaustedStrandEngine | LowResPhoto/MainViewModel.cs:260-261 | once the lost running slots reach `Concurrency`, at once when it is 0 or less, the engine never ends |
| EngineLoop.SettledCorrected | LowResPhoto/MainViewModel.cs:212-240 | with `_hasScheduleDone` set on every return and slots given back, the settled state has an empty queue, the flag set and no slot taken |
| EngineLoop.CorrectedEngineEnds | LowResPhoto/MainViewModel.cs:258-283 | with the corrected wait and scheduler and `Concurrency` at least 1, the engine ends after every kind of scheduler return |
| EngineLoop.CorrectedWaitHonoursCancel | LowResPhoto/MainViewModel.cs:260-261 | the corrected wait ends as soon as a cancel is requested |
| Session.DoSyncAsWritten | LowResPhoto/MainViewModel.cs:179-202 | a click while syncing requests cancel and changes nothing else. Any other click starts a run with trimmed roots and leaves `_isCanceling` as it was |
| Session.DoSyncCorrected | LowResPhoto/MainViewModel.cs:179-202 | the same, except that starting a run clears `_isCanceling` |
| Session.RunEnded | LowResPhoto/MainViewModel.cs:283 | the end of a run clears `IsSyncing` and nothing else |
| Session.CancelSticksAsWritten | LowResPhoto/MainViewModel.cs:183 | start, cancel, end, start again: the new run starts cancelled, and its first scheduling pass ends the loop without taking a folder |
| Session.CorrectedNextRunSchedules | LowResPhoto/MainViewModel.cs:179-202 | the same clicks with the corrected `DoSync` start the new run clear, and its first pass takes the first folder and queues its items |

## Left out

- Threads, the thread pool, `Task.Factory.StartNew`, `Interlocked` counters, `lock` and `Thread.Sleep` polling: the stages are sequential steps. The interleavings that matter are modelled separately, in `ScannerRace` (walker, dispatcher and scheduler) and `EngineLoop` (the engine's waits).
- The backpressure wait (lines 221-224, `_workQueue.Count > 200`) is not modelled. It never reads `_isCanceling`. When the engine stops draining with more than 200 items queued because lost slots reach `Concurrency`, the scheduler waits there for ever and reaches neither line 233 nor line 240. When the engine stops because of a cancel read at line 258, it clears `IsSyncing` (line 283), so a later run can start. That run's line 217 replaces `_workQueue`, which the stale scheduler reads again at line 221. The stale scheduler then leaves its wait, marks its old folder `Working` (line 225), and creates or reconciles that folder's target during the new run (lines 226-232). It then returns at line 233. The `Concurrency` limit is modelled only in `EngineLoop`, where lost slots and a limit of 0 or less block the engine for good.
- The scheduler's initial wait for the first unit in `Folders` (lines 208-216): `StartSchedule` starts once the walk's units are all in `Folders`. That wait has the same dispatcher race as the loop's exit test: when the walk returns before the dispatcher has run its first `Add`, the scheduler returns as if nothing were found. `ScannerRace` models the loop's test only.
- Filesystem effects: directory creation, file deletion and the target-exists test become `FsAction` values, a map of existing target directories and a set of existing target files.
- Scheduling.ScheduleIteration: does not model a throw from `targetFolder.Create()` (line 228) or `delFile.Delete()` (line 250), for example on a locked or read-only target; nothing catches these on the thread-pool thread, so, like the mapping faults (`Faulted`), they end the process under .NET's default policy.
- Execution.RunItem: a conversion that throws is recorded with no action. Whether the target was deleted before `Process.Start` threw is not modelled.
- Execution.RunAll: drains the whole queue in FIFO order, even after slots were lost. The source's wait at lines 260-261 blocks for good once the lost slots reach `Concurrency`, as `EngineLoop.SlotsExhaustedStrandEngine` states; a cancel only stops the engine at the top of its loop, never inside that wait.
- Sync.SyncCompletesEveryFolder: assumes `_isCanceling` is clear at the start, which holds until the first cancel of a session, because line 183 is the only write to it and `DoSync` never clears it (see `Session.CancelSticksAsWritten`). It also assumes that every path maps and that no conversion throws. It runs the scheduler only after every unit the walk found is in `Folders`, which the program does not ensure: the loop's exit test (`ScannerRace.AsWrittenLosesLateUnit`) and the scheduler's initial wait both let a unit arrive after the scheduler has finished.
- Sync.DrainCompletes: assumes that no conversion throws; `Sync.DrainStallsOnThrow` states what happens otherwise.
- EngineLoop.CorrectedEngineEnds: assumes `Concurrency` is at least 1. The settings do not check this, and `EngineLoop.SlotsExhaustedStrandEngine` shows what a smaller value does.
- The `nconvert.exe` subprocess and its 5-second wait: it is an external binary, and a conversion is the `Convert` action or a failure in `Engine.failing`.
- Image decoding (`Image.FromStream`, GDI+ `PropertyItems`): a library outside the model; the image's width, height and property items are the input.
- Floating point: the rational division and the `Math.Pow`/`Math.Round` APEX conversions. The record keeps the numerator/denominator pairs.
- Meta.RetrieveFromFile: holds the date text instead of the `DateTime` parsed by `TryParseExact` with the invariant culture, because culture-dependent date parsing is outside the model; an unparsable date therefore still appears as text.
- Meta.GetStringFromId: states the characters only for bytes below 128; the others decode to '?', as `AsciiDecode` defines.
- Text.EqualsIgnoreCase: folds ASCII letters only; invariant-culture folding of other characters is not modelled.
- Folders.AddOneDone: counters are unbounded integers; 32-bit overflow of `CountDone` would need more than 2^31 files.
- Analysis.AnalyseFolder: its own contract states only that a directory with JPEG files publishes its unit first; `Analysis.AnalyseIsPreOrder` states the full order. A `Dir` always lists: `GetDirectories()` and `GetFiles()` (lines 322-323) throw on an unreadable or access-denied directory, and nothing catches that on the walk's thread. The process then ends under .NET's default policy, and `_hasAnalyzeDone` (line 197) is never set.
- Path normalisation: each directory's `fullName` is taken as given. In the program it is `DirectoryInfo.FullName` of the trimmed root (line 196), which turns `/` into `\`, makes a relative root absolute and reads a bare drive such as `D:` as that drive's current directory. When the root's text then no longer occurs in the paths, the replacement at lines 226 and 266 changes nothing and the target is the source (`Scheduling.UnmatchedRootMapsToSource`). Reconciliation at line 231 then deletes the source directory's non-JPEG files, and with `SkipExisting` off line 308 deletes each source photograph (`Execution.UnmatchedRootDeletesSource`). `Sync.Runnable` asks only that every path maps, so it admits this case.
- Settings load and save, `INotifyPropertyChanged`, `SyncCaption` and the WPF window: UI plumbing with no sync logic. The dispatcher's deferred `Folders.Add` is modelled in `ScannerRace`.
- The Entity Framework context, entities and migration: persistence declarations without logic. The `Photo` record takes its fields from the migration's schema.

## Findings

| source | as written | input that shows it | evidently intended | confidence | as-written member | corrected member |
|---|---|---|---|---|---|---|
| LowResPhoto/MetaRetriever.cs:73 | ISO (tag 0x8827, an unsigned SHORT in TIFF Revision 6.0) is read with `BitConverter.ToInt16`, which is signed | ISO 51200, stored as bytes 00 C8, reads as -14336, and the photo record stores -14336 | read it as unsigned, so that every ISO up to 65535 comes out positive | medium, not executed | Meta.GetIntFromId, Meta.IsoAbove32767ReadsNegative, Meta.RecordedIsoIsNegative | Meta.GetShortFromId, Meta.SignedShortDiffersFromUnsigned |
| LowResPhoto/MainViewModel.cs:219 | the scheduling loop ends, and `_hasScheduleDone` is set, as soon as no unit in `Folders` is `Pending`, even while the walk is still finding units | the scheduler takes folder 1. Its next pass finds nothing `Pending` and ends before folder 2 reaches `Folders`. Folder 2 is never scheduled | end only when every unit the walk found is in `Folders` and none is `Pending`. Waiting for `_hasAnalyzeDone` is not enough, because `Add`s queued on the dispatcher can run after the walk returns (`ScannerRace.FlagOnlyLosesDeferredUnit`) | medium, not executed | ScannerRace.PassAsWritten, ScannerRace.AsWrittenLosesLateUnit | ScannerRace.PassCorrected, ScannerRace.CorrectedEndsComplete, ScannerRace.CorrectedTakesLateUnit |
| LowResPhoto/MainViewModel.cs:260-261 | the engine's inner wait never reads `_isCanceling` and waits for `_hasScheduleDone`, which the scheduler's early returns (lines 215 and 234) never set | a cancel that the scheduler first reads after reconciling a folder (line 233), while the engine waits on an empty queue: the engine never leaves its wait and `IsSyncing` stays true, so no later run can start. Or sync a tree with no JPEG files: line 214 clears `IsSyncing`, but the engine thread stays in its wait and later drains the next run's queue beside that run's own engine | leave the wait on cancel, and set `_hasScheduleDone` on every scheduler return | medium, not executed | EngineLoop.WaitAsWritten, EngineLoop.CancelAfterReconcileStrandsEngine, EngineLoop.CancelReturnStrandsEngine, EngineLoop.NothingPublishedStrandsEngine, EngineLoop.StrandedEngineWakesOnNextRun | EngineLoop.WaitCorrected, EngineLoop.CorrectedEngineEnds, EngineLoop.CorrectedWaitHonoursCancel |
| LowResPhoto/MainViewModel.cs:183 | `_isCanceling` is set on cancel and never cleared | start a sync, cancel it, and start another: the new run's scheduler ends at its first pass without taking a folder | clear `_isCanceling` when a run starts | high, not executed | Session.DoSyncAsWritten, Session.CancelSticksAsWritten | Session.DoSyncCorrected, Session.CorrectedNextRunSchedules |

The photo record (`Meta.RetrieveFromFile`) follows the code and holds the
signed ISO; `Meta.GetShortFromId` is the corrected read. The sequential
composition (`Sync.SyncCompletesEveryFolder`) runs the scheduler only after
every unit is in `Folders`, and starts with `_isCanceling` clear, as the
corrected `DoSync` guarantees.

=== FILE: analysis.dfy ===
/** `AnalyseFolder`: the recursive walk of the source tree that publishes one
    folder unit per directory holding JPEG files. */
module Analysis {
  import opened Seqs
  import opened FileTree
  import opened Folders

  predicate HasJpeg(d: Dir) {
    |JpegFiles(d.files)| > 0
  }

  /** The unit published for a directory: `Pending`, nothing done or deleted,
      and its JPEG files in listing order. */
  function UnitFor(d: Dir): (u: ConvertFolder)
    ensures u.path == d.fullName && u.jpegFiles == JpegFiles(d.files)
    ensures HasJpeg(d) <==> FreshUnit(u)
  {
    var jpgs := JpegFiles(d.files);
    ConvertFolder(Pending, d.fullName, |jpgs|, 0, 0, jpgs)
  }

  /** What every published unit looks like before the scheduler touches it. */
  predicate FreshUnit(u: ConvertFolder) {
    && u.status == Pending
    && u.countAll == |u.jpegFiles| >= 1
    && u.countDone == 0
    && u.countDelete == 0
    && forall f :: f in u.jpegFiles ==> IsJpeg(f)
  }

  /** The units published for `d` and everything below it, in publication order. */
  function AnalyseFolder(d: Dir): (units: seq<ConvertFolder>)
    ensures forall u :: u in units ==> FreshUnit(u)
    ensures HasJpeg(d) ==> |units| > 0 && units[0] == UnitFor(d)
    decreases d, 1, 0
  {
    (if HasJpeg(d) then [UnitFor(d)] else []) + AnalyseChildren(d, 0)
  }

  /** The walk over the subdirectories of `d` from the `i`-th on. */
  function AnalyseChildren(d: Dir, i: nat): (units: seq<ConvertFolder>)
    requires i <= |d.dirs|
    ensures forall u :: u in units ==> FreshUnit(u)
    decreases d, 0, |d.dirs| - i
  {
    if i == |d.dirs| then [] else AnalyseFolder(d.dirs[i]) + AnalyseChildren(d, i + 1)
  }

  /** The directories of a tree in depth-first pre-order. */
  function PreOrder(d: Dir): (r: seq<Dir>)
    ensures |r| >= 1 && r[0] == d
    decreases d, 1, 0
  {
    [d] + PreOrderChildren(d, 0)
  }

  function PreOrderChildren(d: Dir, i: nat): (r: seq<Dir>)
    requires i <= |d.dirs|
    ensures forall k :: i <= k < |d.dirs| ==> d.dirs[k] in r
    decreases d, 0, |d.dirs| - i
  {
    if i == |d.dirs| then [] else PreOrder(d.dirs[i]) + PreOrderChildren(d, i + 1)
  }

  /** The reference walk: the unit of every directory with JPEG files, in the
      order the directories are listed. */
  function UnitsOf(ds: seq<Dir>): (units: seq<ConvertFolder>)
  {
    var withJpeg := Filter(ds, HasJpeg);
    seq(|withJpeg|, k requires 0 <= k < |withJpeg| => UnitFor(withJpeg[k]))
  }

  lemma UnitsOfAppend(a: seq<Dir>, b: seq<Dir>)
    ensures UnitsOf(a + b) == UnitsOf(a) + UnitsOf(b)
  {
    FilterAppend(a, b, HasJpeg);
    var fa, fb := Filter(a, HasJpeg), Filter(b, HasJpeg);
    assert |UnitsOf(a + b)| == |fa| + |fb|;
    forall k | 0 <= k < |fa| + |fb|
      ensures UnitsOf(a + b)[k] == (UnitsOf(a) + UnitsOf(b))[k]
    {
      if k < |fa| {
        assert (fa + fb)[k] == fa[k];
      } else {
        assert (fa + fb)[k] == fb[k - |fa|];
      }
    }
  }

  /** Each unit comes from a listed directory with JPEG files, and each such
      directory has its unit. */
  lemma UnitsOfMembership(ds: seq<Dir>, u: ConvertFolder)
    ensures u in UnitsOf(ds) <==> exists x :: x in ds && HasJpeg(x) && u == UnitFor(x)
  {
    var withJpeg := Filter(ds, HasJpeg);
    if exists x :: x in ds && HasJpeg(x) && u == UnitFor(x) {
      var x :| x in ds && HasJpeg(x) && u == UnitFor(x);
      var k :| 0 <= k < |withJpeg| && withJpeg[k] == x;
      assert UnitsOf(ds)[k] == u;
    }
  }

  /** The walk publishes exactly the units of the directories with JPEG files,
      in depth-first pre-order. */
  lemma {:induction false} AnalyseIsPreOrder(d: Dir)
    ensures AnalyseFolder(d) == UnitsOf(PreOrder(d))
    decreases d, 1, 0
  {
    AnalyseChildrenIsPreOrder(d, 0);
    UnitsOfAppend([d], PreOrderChildren(d, 0));
    if HasJpeg(d) {
      assert UnitsOf([d]) == [UnitFor(d)];
    } else {
      assert UnitsOf([d]) == [];
    }
  }

  lemma {:induction false} AnalyseChildrenIsPreOrder(d: Dir, i: nat)
    requires i <= |d.dirs|
    ensures AnalyseChildren(d, i) == UnitsOf(PreOrderChildren(d, i))
    decreases d, 0, |d.dirs| - i
  {
    if i < |d.dirs| {
      AnalyseIsPreOrder(d.dirs[i]);
      AnalyseChildrenIsPreOrder(d, i + 1);
      UnitsOfAppend(PreOrder(d.dirs[i]), PreOrderChildren(d, i + 1));
    }
  }
}

=== FILE: bytes.dfy ===
/** Little-endian integer decoding as `BitConverter` performs it on a
    little-endian machine, with the matching encoders. */
module Bytes {

  newtype byte = x: int | 0 <= x < 256

  /** `BitConverter.ToInt16(value, 0)`: two's-complement 16-bit, low byte first. */
  function Int16Le(b0: byte, b1: byte): (v: int)
    ensures -32768 <= v <= 32767
    ensures (v + 65536) % 65536 == b0 as int + 256 * b1 as int
    ensures v < 0 <==> b1 >= 128
  {
    var u := b0 as int + 256 * b1 as int;
    if u >= 32768 then u - 65536 else u
  }

  function EncodeInt16Le(v: int): (bs: seq<byte>)
    requires -32768 <= v <= 32767
    ensures |bs| == 2
  {
    var u := if v < 0 then v + 65536 else v;
    [(u % 256) as byte, (u / 256) as byte]
  }

  lemma Int16RoundTrip(v: int)
    requires -32768 <= v <= 32767
    ensures Int16Le(EncodeInt16Le(v)[0], EncodeInt16Le(v)[1]) == v
  {
  }

  lemma Int16BytesRoundTrip(b0: byte, b1: byte)
    ensures EncodeInt16Le(Int16Le(b0, b1)) == [b0, b1]
  {
  }

  /** The unsigned 16-bit SHORT of TIFF Revision 6.0, section 2, low byte first. */
  function UInt16Le(b0: byte, b1: byte): (v: int)
    ensures 0 <= v < 65536
    ensures v < 32768 ==> v == Int16Le(b0, b1)
    ensures v >= 32768 ==> v == Int16Le(b0, b1) + 65536
  {
    b0 as int + 256 * b1 as int
  }

  /** `BitConverter.ToUInt32(value, off)`: unsigned 32-bit, low byte first. */
  function UInt32Le(bs: seq<byte>, off: nat): (v: int)
    requires off + 4 <= |bs|
    ensures 0 <= v < 0x1_0000_0000
  {
    bs[off] as int + 0x100 * bs[off + 1] as int + 0x1_0000 * bs[off + 2] as int + 0x100_0000 * bs[off + 3] as int
  }

  function EncodeUInt32Le(v: int): (bs: seq<byte>)
    requires 0 <= v < 0x1_0000_0000
    ensures |bs| == 4
  {
    [(v % 0x100) as byte, (v / 0x100 % 0x100) as byte, (v / 0x1_0000 % 0x100) as byte, (v / 0x100_0000) as byte]
  }

  lemma UInt32RoundTrip(v: int)
    requires 0 <= v < 0x1_0000_0000
    ensures UInt32Le(EncodeUInt32Le(v), 0) == v
  {
    var q1 := v / 0x100;
    var q2 := q1 / 0x100;
    var q3 := q2 / 0x100;
    DivDiv(v, q1, q2);
    assert v == v % 0x100 + 0x100 * q1;
    assert q1 == q1 % 0x100 + 0x100 * q2;
    assert q2 == q2 % 0x100 + 0x100 * q3;
    assert EncodeUInt32Le(v) == [(v % 0x100) as byte, (q1 % 0x100) as byte, (q2 % 0x100) as byte, q3 as byte];
  }

  lemma UInt32BytesRoundTrip(bs: seq<byte>)
    requires |bs| == 4
    ensures EncodeUInt32Le(UInt32Le(bs, 0)) == bs
  {
    var b0, b1, b2, b3 := bs[0] as int, bs[1] as int, bs[2] as int, bs[3] as int;
    var hi := b1 + 0x100 * b2 + 0x1_0000 * b3;
    var v := UInt32Le(bs, 0);
    assert v == b0 + 0x100 * hi;
    SplitLowByte(b0, hi);
    var mid := b2 + 0x100 * b3;
    assert hi == b1 + 0x100 * mid;
    SplitLowByte(b1, mid);
    SplitLowByte(b2, b3);
    assert v / 0x1_0000 == mid by {
      DivDiv(v, hi, mid);
    }
    assert v / 0x100_0000 == b3 by {
      DivDiv(v, hi, mid);
      assert v / 0x100_0000 == mid / 0x100;
    }
  }

  lemma SplitLowByte(lo: int, hi: int)
    requires 0 <= lo < 0x100 && 0 <= hi
    ensures (lo + 0x100 * hi) % 0x100 == lo
    ensures (lo + 0x100 * hi) / 0x100 == hi
  {
  }

  lemma DivDiv(v: int, hi: int, mid: int)
    requires 0 <= v && v / 0x100 == hi && hi / 0x100 == mid
    ensures v / 0x1_0000 == mid
    ensures v / 0x100_0000 == mid / 0x100
  {
  }
}

=== FILE: engine_loop.dfy ===
/** The two waits of `RunWork` over the state the engine shares with the
    scheduler, looked at once the scheduler has returned and the conversion
    tasks have ended. Within the run nothing else writes that state, so a wait
    that holds then holds until a later run's scheduler creates a new queue.
    After a cancel return with the queue empty the engine waits for ever, and
    `IsSyncing` stays set, so no later run can start; had items remained, the
    engine would dequeue one, read the cancel at its loop test and end. After `NothingFound` the scheduler has cleared
    `IsSyncing` itself; the engine stays in its wait until the next run's queue
    appears and then drains it next to that run's own engine. */
module EngineLoop {
  import opened Wrappers
  import opened FileTree
  import opened Folders
  import opened Scheduling
  import opened Execution

  /** `_workQueue` (none while it is null, else its length),
      `_currentRunningCount`, `Concurrency`, `_hasScheduleDone` and `_isCanceling`. */
  datatype Shared = Shared(queue: Option<nat>, running: int, concurrency: int,
                           scheduleDone: bool, canceling: bool)

  /** The loop condition of `RunWork`. */
  predicate LoopTest(s: Shared) {
    !s.canceling && (s.queue.None? || s.queue.value > 0 || !s.scheduleDone)
  }

  /** The inner wait as written: it never reads `_isCanceling`. */
  predicate WaitAsWritten(s: Shared) {
    s.queue.None? || s.running >= s.concurrency || (s.queue.value == 0 && !s.scheduleDone)
  }

  /** The inner wait with the cancel flag in its test. */
  predicate WaitCorrected(s: Shared) {
    !s.canceling && WaitAsWritten(s)
  }

  /** How `ScheduleWork` returned: its loop ended (`_hasScheduleDone` set), the
      cancel check after reconciliation returned early, or the walk published
      nothing and it returned before creating the queue. */
  datatype SchedulerExit = LoopEnded | CancelReturn | NothingPublished

  /** The shared state once the scheduler has returned and the engine has
      drained the queue. `hadQueue`: an earlier run of the session left a queue
      (the field is only ever assigned by `ScheduleWork`); `leaked`: running
      slots whose task threw and never gave them back. */
  function SettledAsWritten(exit: SchedulerExit, hadQueue: bool, leaked: nat, concurrency: int,
                            canceling: bool): (s: Shared)
    ensures s.running == leaked && s.concurrency == concurrency
    ensures s.scheduleDone <==> exit == LoopEnded
    ensures s.queue.None? <==> exit == NothingPublished && !hadQueue
    ensures s.queue.Some? ==> s.queue.value == 0
    ensures exit == CancelReturn ==> s.canceling
  {
    match exit
    case LoopEnded => Shared(Some(0), leaked, concurrency, true, canceling)
    case CancelReturn => Shared(Some(0), leaked, concurrency, false, true)
    case NothingPublished => Shared(if hadQueue then Some(0) else None, leaked, concurrency, false, canceling)
  }

  /** The engine reaches `IsSyncing = false` from any point of its loop: the
      wait does not hold, and the loop condition fails. */
  predicate EndsAsWritten(s: Shared) {
    !WaitAsWritten(s) && !LoopTest(s)
  }

  predicate EndsCorrected(s: Shared) {
    !WaitCorrected(s) && !LoopTest(s)
  }

  /** After a normal end, with a free running slot, the engine stops. */
  lemma LoopEndReleasesEngine(hadQueue: bool, leaked: nat, concurrency: int, canceling: bool)
    requires leaked < concurrency
    ensures EndsAsWritten(SettledAsWritten(LoopEnded, hadQueue, leaked, concurrency, canceling))
  {
  }

  /** After the scheduler's cancel return, an engine waiting on the empty queue
      waits for ever: the wait reads neither the cancel flag nor anything the
      returned scheduler will still write. */
  lemma CancelReturnStrandsEngine(hadQueue: bool, leaked: nat, concurrency: int)
    ensures WaitAsWritten(SettledAsWritten(CancelReturn, hadQueue, leaked, concurrency, true))
    ensures !EndsAsWritten(SettledAsWritten(CancelReturn, hadQueue, leaked, concurrency, true))
  {
  }

  /** When the walk published nothing, the engine waits: this run brings
      neither a queue nor `_hasScheduleDone`, and without a cancel it never
      leaves its loop on its own. */
  lemma NothingPublishedStrandsEngine(hadQueue: bool, leaked: nat, concurrency: int, canceling: bool)
    ensures var s := SettledAsWritten(NothingPublished, hadQueue, leaked, concurrency, canceling);
            WaitAsWritten(s) && (!canceling ==> LoopTest(s)) && !EndsAsWritten(s)
  {
  }

  /** Once the leaked slots reach `Concurrency` (at once when `Concurrency <= 0`)
      the wait never ends, however the scheduler returned. */
  lemma SlotsExhaustedStrandEngine(exit: SchedulerExit, hadQueue: bool, leaked: nat, concurrency: int,
                                   canceling: bool)
    requires leaked >= concurrency
    ensures !EndsAsWritten(SettledAsWritten(exit, hadQueue, leaked, concurrency, canceling))
  {
  }

  /** The engine stranded by a run that published nothing wakes when a later
      run's scheduler enqueues items, and dequeues from that run's queue. */
  lemma StrandedEngineWakesOnNextRun(hadQueue: bool, leaked: nat, concurrency: int, items: nat)
    requires leaked < concurrency && items > 0
    ensures var s := SettledAsWritten(NothingPublished, hadQueue, leaked, concurrency, false);
            var next := s.(queue := Some(items));
            WaitAsWritten(s) && !WaitAsWritten(next) && LoopTest(next)
  {
  }

  /** How a scheduler that has left `Running` returned; a `Faulted` scheduler
      does not return, its exception ends the process. */
  function ExitOf(p: Phase): Option<SchedulerExit> {
    match p
    case Finished => Some(LoopEnded)
    case Aborted => Some(CancelReturn)
    case NothingFound => Some(NothingPublished)
    case _ => None
  }

  /** A cancel read by the loop condition (line 219) ends the loop normally,
      which sets `_hasScheduleDone` and releases an engine with a free slot. */
  lemma CancelAtLoopTopReleasesEngine(s: Scheduler, roots: Roots, targets: map<string, seq<FileEntry>>,
                                      n: nat, leaked: nat, concurrency: int)
    requires s.phase == Running && leaked < concurrency
    ensures var r := ScheduleRun(s, roots, targets, Some(2 * n), n);
            && ExitOf(r.phase) == Some(LoopEnded)
            && EndsAsWritten(SettledAsWritten(ExitOf(r.phase).value, true, leaked, concurrency, true))
  {
    var next := ScheduleIteration(s, roots, targets, true, true);
    assert next.phase == Finished;
  }

  /** A cancel first read after reconciliation (line 233) makes the scheduler
      return early, and the engine waiting on the empty queue is stranded. */
  lemma CancelAfterReconcileStrandsEngine(s: Scheduler, roots: Roots, targets: map<string, seq<FileEntry>>,
                                          n: nat, leaked: nat, concurrency: int)
    requires s.phase == Running && GetNextFolder(s.folders).Some?
    requires MapToTarget(s.folders[GetNextFolder(s.folders).value].path, roots).Success?
    ensures var r := ScheduleRun(s, roots, targets, Some(2 * n + 1), n);
            && ExitOf(r.phase) == Some(CancelReturn)
            && WaitAsWritten(SettledAsWritten(ExitOf(r.phase).value, true, leaked, concurrency, true))
            && !EndsAsWritten(SettledAsWritten(ExitOf(r.phase).value, true, leaked, concurrency, true))
  {
    var next := ScheduleIteration(s, roots, targets, false, true);
    assert next.phase == Aborted;
  }

  /** The slots `RunAll` loses to throwing tasks are the ones the wait counts:
      once the queue holds at least `Concurrency` throwing items, the engine
      never ends, however the scheduler returned. */
  lemma ThrownTasksStrandEngine(folders: seq<ConvertFolder>, q: seq<WorkItem>, e: Engine,
                                exit: SchedulerExit, hadQueue: bool, concurrency: int, canceling: bool)
    requires ItemsInRange(q, |folders|) && RunAll(folders, q, e).Success?
    requires Thrown(q, e) >= concurrency
    ensures !EndsAsWritten(SettledAsWritten(exit, hadQueue, RunAll(folders, q, e).value.leaked,
                                            concurrency, canceling))
  {
    SlotsExhaustedStrandEngine(exit, hadQueue, RunAll(folders, q, e).value.leaked, concurrency, canceling);
  }

  /** The scheduler with `_hasScheduleDone` set on every return (and the queue
      created before the early return), and conversion tasks that give their
      slot back in a `finally`. */
  function SettledCorrected(exit: SchedulerExit, concurrency: int, canceling: bool): (s: Shared)
    ensures s.running == 0 && s.concurrency == concurrency && s.scheduleDone
    ensures s.queue == Some(0)
    ensures exit == CancelReturn ==> s.canceling
  {
    Shared(Some(0), 0, concurrency, true, canceling || exit == CancelReturn)
  }

  /** With the corrected wait and scheduler, the engine stops after every kind
      of scheduler return. */
  lemma CorrectedEngineEnds(exit: SchedulerExit, concurrency: int, canceling: bool)
    requires concurrency >= 1
    ensures EndsCorrected(SettledCorrected(exit, concurrency, canceling))
  {
  }

  /** The corrected wait ends as soon as cancellation is requested, whatever
      else holds. */
  lemma CorrectedWaitHonoursCancel(s: Shared)
    requires s.canceling
    ensures !WaitCorrected(s) && !LoopTest(s)
  {
  }
}

=== FILE: execution.dfy ===
/** The execution engine (`RunWork`, `ConvertFile`, `AddOneDone`), as sequential
    steps: each dequeued work item is either counted done at once or converted
    and then counted done. The conversion itself is an action handed to the
    external resizer. */
module Execution {
  import opened Wrappers
  import opened Text
  import opened FileTree
  import opened Folders
  import opened Scheduling

  /** `ConvertFile`: nothing at all once cancellation is requested; otherwise an
      existing target is deleted and the resizer is invoked on the source. */
  function ConvertFile(source: FileEntry, target: string, targetExists: bool, canceling: bool,
                       longSize: int): (acts: seq<FsAction>)
    ensures canceling ==> acts == []
    ensures !canceling ==> |acts| >= 1 && acts[|acts| - 1] == Convert(source, target, longSize)
    ensures !canceling && targetExists ==> acts[0] == DeleteTarget(target)
    ensures canceling || !targetExists ==> forall a :: a in acts ==> !a.DeleteTarget?
    ensures forall a :: a in acts ==> a.DeleteTarget? || a.Convert?
    ensures |acts| == (if canceling then 0 else if targetExists then 2 else 1)
  {
    if canceling then []
    else if targetExists then [DeleteTarget(target), Convert(source, target, longSize)]
    else [Convert(source, target, longSize)]
  }

  /** What the engine works against: the roots, the target files present, the
      `SkipExisting` and `LongSize` settings, and the source files whose
      conversion throws (a target that cannot be deleted, a resizer that cannot
      be started). */
  datatype Engine = Engine(roots: Roots, existing: set<string>, skipExisting: bool,
                           failing: set<string>, longSize: int)

  /** The outcome of processing items: the folder collection, the actions
      issued, and the number of running-task slots never given back. */
  datatype Step = Step(folders: seq<ConvertFolder>, actions: seq<FsAction>, leaked: nat)

  /** The item's task throws: it is dispatched to a task (its target does not
      both exist and get skipped), `ConvertFile` gets past its cancel check, and
      deleting the target or starting the resizer throws. The task body has no
      `finally`, so neither `AddOneDone` nor the slot release runs. */
  predicate Throws(wi: WorkItem, e: Engine, canceling: bool) {
    match MapToTarget(wi.file.fullName, e.roots)
    case Failure(_) => false
    case Success(target) =>
      !(target in e.existing && e.skipExisting) && !canceling && wi.file.fullName in e.failing
  }

  /** One dequeued item of `RunWork`, with the task it may spawn run to its end.
      An item whose target exists while `SkipExisting` is set is only counted
      done; any other item is dispatched to a task that runs `ConvertFile` and
      then counts it done, unless the conversion throws. `canceling` is the
      value of `_isCanceling` the task reads. */
  function RunItem(folders: seq<ConvertFolder>, wi: WorkItem, e: Engine, canceling: bool): (r: Result<Step, MapError>)
    requires wi.folder < |folders|
    ensures r.Failure? <==> MapToTarget(wi.file.fullName, e.roots).Failure?
    ensures r.Success? && !Throws(wi, e, canceling) ==>
              r.value.folders == CompleteItem(folders, wi) && r.value.leaked == 0
    ensures r.Success? && Throws(wi, e, canceling) ==>
              r.value.folders == folders && r.value.leaked == 1 && r.value.actions == []
    ensures r.Success? ==>
              var target := MapToTarget(wi.file.fullName, e.roots).value;
              && ((exists a :: a in r.value.actions && a.Convert?) <==>
                    !(target in e.existing && e.skipExisting) && !canceling && wi.file.fullName !in e.failing)
              && (forall a :: a in r.value.actions && a.Convert? ==>
                    a == Convert(wi.file, target, e.longSize))
    ensures r.Success? ==>
              var target := MapToTarget(wi.file.fullName, e.roots).value;
              && (target in e.existing && e.skipExisting ==> r.value.actions == [])
              && (!Throws(wi, e, canceling) && !(target in e.existing && e.skipExisting) ==>
                    r.value.actions == ConvertFile(wi.file, target, target in e.existing, canceling, e.longSize))
  {
    var target :- MapToTarget(wi.file.fullName, e.roots);
    var targetExists := target in e.existing;
    if targetExists && e.skipExisting then Success(Step(CompleteItem(folders, wi), [], 0))
    else if !canceling && wi.file.fullName in e.failing then Success(Step(folders, [], 1))
    else
      var acts := ConvertFile(wi.file, target, targetExists, canceling, e.longSize);
      Success(Step(CompleteItem(folders, wi), acts, 0))
  }

  /** When the source root's text does not occur in a file's path, the target
      is the source file itself, which exists: without `SkipExisting` the
      engine deletes the source photograph and then runs the resizer on the
      path it has just deleted. */
  lemma UnmatchedRootDeletesSource(folders: seq<ConvertFolder>, wi: WorkItem, e: Engine)
    requires wi.folder < |folders|
    requires |e.roots.high| > 0 && |wi.file.fullName| > 0 && !Occurs(e.roots.high, wi.file.fullName)
    requires wi.file.fullName in e.existing && !e.skipExisting && wi.file.fullName !in e.failing
    ensures RunItem(folders, wi, e, false) ==
              Success(Step(CompleteItem(folders, wi),
                           [DeleteTarget(wi.file.fullName), Convert(wi.file, wi.file.fullName, e.longSize)], 0))
  {
    UnmatchedRootMapsToSource(wi.file.fullName, e.roots);
  }

  /** Number of items in `q` that belong to folder `k`. */
  function CountFor(q: seq<WorkItem>, k: nat): nat
    decreases |q|
  {
    if |q| == 0 then 0 else (if q[0].folder == k then 1 else 0) + CountFor(q[1..], k)
  }

  /** Number of items in `q` that belong to folder `k` and whose task throws. */
  function ThrownFor(q: seq<WorkItem>, k: nat, e: Engine): (n: nat)
    ensures n <= CountFor(q, k)
    decreases |q|
  {
    if |q| == 0 then 0
    else (if q[0].folder == k && Throws(q[0], e, false) then 1 else 0) + ThrownFor(q[1..], k, e)
  }

  /** Number of items in `q` whose task throws. */
  function Thrown(q: seq<WorkItem>, e: Engine): nat
    decreases |q|
  {
    if |q| == 0 then 0 else (if Throws(q[0], e, false) then 1 else 0) + Thrown(q[1..], e)
  }

  predicate ItemsInRange(q: seq<WorkItem>, n: nat) {
    forall j :: 0 <= j < |q| ==> q[j].folder < n
  }

  /** Every item's target path can be built. */
  predicate AllMappable(q: seq<WorkItem>, roots: Roots) {
    forall j :: 0 <= j < |q| ==> MapToTarget(q[j].file.fullName, roots).Success?
  }

  /** `RunWork` draining the whole queue in FIFO order without cancellation.
      Each folder gains one completion per item of it whose task does not
      throw; an item whose task throws leaves its folder as it was and its
      running slot taken. */
  function RunAll(folders: seq<ConvertFolder>, q: seq<WorkItem>, e: Engine): (r: Result<Step, MapError>)
    requires ItemsInRange(q, |folders|)
    ensures r.Failure? <==> !AllMappable(q, e.roots)
    ensures r.Success? ==> |r.value.folders| == |folders| && NoNewPending(folders, r.value.folders)
    ensures r.Success? ==> r.value.leaked == Thrown(q, e)
    ensures r.Success? ==> forall k :: 0 <= k < |folders| ==>
              && r.value.folders[k].countDone + ThrownFor(q, k, e) == folders[k].countDone + CountFor(q, k)
              && r.value.folders[k].countAll == folders[k].countAll
              && r.value.folders[k].jpegFiles == folders[k].jpegFiles
              && (CountFor(q, k) == ThrownFor(q, k, e) ==> r.value.folders[k] == folders[k])
              && (CountFor(q, k) > ThrownFor(q, k, e) && folders[k].countAll <= r.value.folders[k].countDone ==>
                    r.value.folders[k].status == Done)
              && (folders[k].countAll > r.value.folders[k].countDone ==>
                    r.value.folders[k].status == folders[k].status)
    decreases |q|
  {
    if |q| == 0 then Success(Step(folders, [], 0))
    else
      var first :- RunItem(folders, q[0], e, false);
      var rest :- RunAll(first.folders, q[1..], e);
      NoNewPendingTransitive(folders, first.folders, rest.folders);
      Success(Step(rest.folders, first.actions + rest.actions, first.leaked + rest.leaked))
  }
}

=== FILE: filetree.dfy ===
/** The directory listing the walker and the reconciler see: an immutable tree
    standing for what `DirectoryInfo.GetDirectories` and `GetFiles` return. */
module FileTree {
  import opened Text
  import opened Seqs

  /** A `FileInfo`: its `Name` and its `FullName`. */
  datatype FileEntry = FileEntry(name: string, fullName: string)

  /** A `DirectoryInfo` together with its listing, in listing order. */
  datatype Dir = Dir(fullName: string, files: seq<FileEntry>, dirs: seq<Dir>)

  /** The walker's filter: the extension equals ".jpg", ignoring case. */
  predicate IsJpeg(f: FileEntry) {
    EqualsIgnoreCase(Extension(f.name), ".jpg")
  }

  /** The files of a listing the walker keeps, in listing order. */
  function JpegFiles(files: seq<FileEntry>): (r: seq<FileEntry>)
    ensures forall f :: f in r <==> f in files && IsJpeg(f)
  {
    Filter(files, IsJpeg)
  }

  /** The extension test is the same as asking whether the name ends in ".jpg"
      in any letter case. */
  lemma IsJpegBySuffix(name: string)
    ensures EqualsIgnoreCase(Extension(name), ".jpg") <==>
              |name| >= 4 && EqualsIgnoreCase(name[|name| - 4..], ".jpg")
  {
    if |name| >= 4 && EqualsIgnoreCase(name[|name| - 4..], ".jpg") {
      var n := |name|;
      assert UpperAscii(name[n - 4]) == '.';
      assert UpperAscii(name[n - 3]) == 'J';
      assert UpperAscii(name[n - 2]) == 'P';
      assert UpperAscii(name[n - 1]) == 'G';
      assert LastDot(name) == n - 4;
    }
  }
}

=== FILE: folders.dfy ===
/** The per-folder bookkeeping of a sync run: `ConvertStatus`, `ConvertFolder`,
    `WorkItem`, the scheduler's pick (`GetNextFolder`) and the engine's progress
    update (`AddOneDone`). */
module Folders {
  import opened Wrappers
  import opened Seqs
  import opened FileTree

  datatype ConvertStatus = Pending | Working | Done | Error

  /** One source directory holding JPEG files, and its progress counters. */
  datatype ConvertFolder = ConvertFolder(
    status: ConvertStatus,
    path: string,
    countAll: int,
    countDone: int,
    countDelete: int,
    jpegFiles: seq<FileEntry>)

  /** One file to process. The C# item holds a reference to its folder; here it
      holds the folder's index in the shared folder collection. */
  datatype WorkItem = WorkItem(folder: nat, file: FileEntry)

  /** Every folder the source knows about is still present, and none that had
      left `Pending` is `Pending` again. */
  predicate NoNewPending(before: seq<ConvertFolder>, after: seq<ConvertFolder>) {
    |before| == |after| &&
    forall k :: 0 <= k < |before| && before[k].status != Pending ==> after[k].status != Pending
  }

  lemma NoNewPendingTransitive(a: seq<ConvertFolder>, b: seq<ConvertFolder>, c: seq<ConvertFolder>)
    requires NoNewPending(a, b) && NoNewPending(b, c)
    ensures NoNewPending(a, c)
  {
  }

  predicate IsPending(f: ConvertFolder) {
    f.status == Pending
  }

  /** `Folders.FirstOrDefault(x => x.Status == ConvertStatus.Pending)`: the first
      `Pending` folder, or none when no folder is `Pending`. */
  function GetNextFolder(folders: seq<ConvertFolder>): (r: Option<nat>)
    ensures r.Some? ==> r.value < |folders| && folders[r.value].status == Pending &&
                        forall j :: 0 <= j < r.value ==> folders[j].status != Pending
    ensures r.None? <==> forall j :: 0 <= j < |folders| ==> folders[j].status != Pending
  {
    FirstIndex(folders, IsPending)
  }

  /** Once a picked folder has left `Pending` and no folder has become `Pending`
      again, the next pick lies strictly after the previous one: no folder is
      picked twice. */
  lemma NextPickIsLater(before: seq<ConvertFolder>, after: seq<ConvertFolder>, i: nat)
    requires GetNextFolder(before) == Some(i)
    requires NoNewPending(before, after)
    requires after[i].status != Pending
    ensures GetNextFolder(after).None? || GetNextFolder(after).value > i
  {
    forall j | 0 <= j < i
      ensures after[j].status != Pending
    {
      assert before[j].status != Pending;
    }
  }

  /** `AddOneDone`: one more file of the folder is finished; the folder becomes
      `Done` once the done count reaches the total. */
  function AddOneDone(f: ConvertFolder): (r: ConvertFolder)
    ensures r.countDone == f.countDone + 1
    ensures r.countAll == f.countAll && r.path == f.path &&
            r.countDelete == f.countDelete && r.jpegFiles == f.jpegFiles
    ensures f.countAll <= r.countDone ==> r.status == Done
    ensures f.countAll > r.countDone ==> r.status == f.status
  {
    var done := f.countDone + 1;
    f.(countDone := done, status := if f.countAll <= done then Done else f.status)
  }

  /** A status that has left `Pending` never returns to it through `AddOneDone`. */
  lemma AddOneDoneNeverPending(f: ConvertFolder)
    requires f.status != Pending
    ensures AddOneDone(f).status != Pending
  {
  }

  /** `n` consecutive completions of a folder. */
  function AddDone(f: ConvertFolder, n: nat): ConvertFolder
    decreases n
  {
    if n == 0 then f else AddOneDone(AddDone(f, n - 1))
  }

  /** A folder that starts `Working` with nothing done is `Done` after exactly
      `countAll` completions and not before. */
  lemma {:induction false} AddDoneReachesDone(f: ConvertFolder, n: nat)
    requires f.status == Working && f.countDone == 0
    ensures AddDone(f, n).countDone == n && AddDone(f, n).countAll == f.countAll
    ensures AddDone(f, n).status == Done <==> n >= 1 && n >= f.countAll
    ensures AddDone(f, n).status == Working <==> !(n >= 1 && n >= f.countAll)
    decreases n
  {
    if n > 0 {
      AddDoneReachesDone(f, n - 1);
      var g := AddDone(f, n - 1);
      assert AddDone(f, n) == AddOneDone(g);
      assert g.countAll == f.countAll;
    }
  }

  /** The engine's completion of a work item, applied to the item's folder. */
  function CompleteItem(folders: seq<ConvertFolder>, wi: WorkItem): (r: seq<ConvertFolder>)
    requires wi.folder < |folders|
    ensures |r| == |folders|
    ensures r[wi.folder] == AddOneDone(folders[wi.folder])
    ensures forall k :: 0 <= k < |folders| && k != wi.folder ==> r[k] == folders[k]
    ensures NoNewPending(folders, r)
  {
    folders[wi.folder := AddOneDone(folders[wi.folder])]
  }
}

=== FILE: meta.dfy ===
/** `MetaRetriever`: reading the EXIF/TIFF property items of an image into a
    photo record. The image decoder is not modelled; its property list, width
    and height are the input. */
module Meta {
  import opened Wrappers
  import opened Seqs
  import opened Bytes
  import opened FileTree

  /** A GDI+ `PropertyItem`: tag id, declared length and raw value bytes. */
  datatype PropertyItem = PropertyItem(id: int, len: int, value: seq<byte>)

  /** What the image decoder hands over: intrinsic size and property items. */
  datatype Image = Image(width: int, height: int, items: seq<PropertyItem>)

  /** A RATIONAL value kept as its two words, before any division. */
  datatype Rational = Rational(numerator: int, denominator: int)

  /** The exception a decoder throws on a value too short for its type,
      tagged with the id being read. */
  datatype MetaError = Malformed(id: int)

  /** The value types the retriever reads: ASCII (type 2), SHORT (type 3) and
      RATIONAL (type 5) of TIFF Revision 6.0, section 2. */
  datatype TagKind = Ascii | Short | Ratio

  const TagMake := 0x10F
  const TagModel := 0x110
  const TagSoftware := 0x131
  const TagDateTime := 0x132
  const TagIso := 0x8827
  const TagShutterSpeedValue := 0x9201
  const TagApertureValue := 0x9202
  const TagFocalLength := 0x920A

  function HasId(id: int): PropertyItem -> bool {
    (p: PropertyItem) => p.id == id
  }

  /** `GetItemFromId`: the first property item carrying `id`, none if no item does. */
  function GetItemFromId(items: seq<PropertyItem>, id: int): (r: Option<PropertyItem>)
    ensures r.None? <==> forall k :: 0 <= k < |items| ==> items[k].id != id
    ensures r.Some? ==> exists k :: 0 <= k < |items| && items[k] == r.value && r.value.id == id &&
                                    forall j :: 0 <= j < k ==> items[j].id != id
  {
    match FirstIndex(items, HasId(id))
    case None => None
    case Some(k) => Some(items[k])
  }

  /** The item for `id` is present but too short for a value of kind `kind`:
      `GetString(Value, 0, Len - 1)` needs `1 <= Len <= |Value| + 1`,
      `ToInt16(Value, 0)` two bytes and the two `ToUInt32` reads eight. */
  predicate Undecodable(items: seq<PropertyItem>, id: int, kind: TagKind) {
    match GetItemFromId(items, id)
    case None => false
    case Some(p) =>
      match kind
      case Ascii => p.len < 1 || p.len - 1 > |p.value|
      case Short => |p.value| < 2
      case Ratio => |p.value| < 8
  }

  /** `ASCIIEncoding.GetString`: bytes below 128 are their character, every
      other byte decodes to '?'. */
  function AsciiDecode(bs: seq<byte>): (s: string)
    ensures |s| == |bs|
  {
    seq(|bs|, k requires 0 <= k < |bs| => if bs[k] < 128 then bs[k] as int as char else '?')
  }

  predicate IsAscii(s: string) {
    forall k :: 0 <= k < |s| ==> s[k] as int < 128
  }

  /** The bytes of an ASCII value as TIFF stores it: the characters, then NUL. */
  function AsciiValue(s: string): (bs: seq<byte>)
    requires IsAscii(s)
    ensures |bs| == |s| + 1 && bs[|s|] == 0
  {
    seq(|s|, k requires 0 <= k < |s| => s[k] as int as byte) + [0]
  }

  /** `GetStringFromId`: none for an absent tag; otherwise the first `Len - 1`
      bytes decoded as ASCII, which drops the NUL that ends a TIFF ASCII value. */
  function GetStringFromId(items: seq<PropertyItem>, id: int): (r: Result<Option<string>, MetaError>)
    ensures r.Failure? <==> Undecodable(items, id, Ascii)
    ensures r.Failure? ==> r.error == Malformed(id)
    ensures r.Success? ==> (r.value.None? <==> GetItemFromId(items, id).None?)
    ensures r.Success? && r.value.Some? ==>
              var p := GetItemFromId(items, id).value;
              |r.value.value| == p.len - 1 &&
              forall k :: 0 <= k < p.len - 1 ==> (p.value[k] < 128 ==> r.value.value[k] as int == p.value[k] as int)
  {
    match GetItemFromId(items, id)
    case None => Success(None)
    case Some(p) =>
      if p.len - 1 < 0 || p.len - 1 > |p.value| then Failure(Malformed(id))
      else Success(Some(AsciiDecode(p.value[..p.len - 1])))
  }

  /** An ASCII tag written as TIFF prescribes (characters, NUL, count including
      the NUL) reads back as the original text. */
  lemma AsciiRoundTrip(s: string, id: int, rest: seq<PropertyItem>)
    requires IsAscii(s)
    ensures GetStringFromId([PropertyItem(id, |s| + 1, AsciiValue(s))] + rest, id) == Success(Some(s))
  {
    var items := [PropertyItem(id, |s| + 1, AsciiValue(s))] + rest;
    assert GetItemFromId(items, id) == Some(items[0]);
    assert AsciiValue(s)[..|s|] == seq(|s|, k requires 0 <= k < |s| => s[k] as int as byte);
    assert AsciiDecode(AsciiValue(s)[..|s|]) == s;
  }

  /** `GetIntFromId`: none for an absent tag; otherwise `ToInt16` of bytes 0..1. */
  function GetIntFromId(items: seq<PropertyItem>, id: int): (r: Result<Option<int>, MetaError>)
    ensures r.Failure? <==> Undecodable(items, id, Short)
    ensures r.Failure? ==> r.error == Malformed(id)
    ensures r.Success? ==> (r.value.None? <==> GetItemFromId(items, id).None?)
    ensures r.Success? && r.value.Some? ==>
              var p := GetItemFromId(items, id).value;
              && -32768 <= r.value.value <= 32767
              && EncodeInt16Le(r.value.value) == p.value[..2]
  {
    match GetItemFromId(items, id)
    case None => Success(None)
    case Some(p) =>
      if |p.value| < 2 then Failure(Malformed(id))
      else
        Int16BytesRoundTrip(p.value[0], p.value[1]);
        Success(Some(Int16Le(p.value[0], p.value[1])))
  }

  /** `GetDoubleFromId` up to the division: none for an absent tag; otherwise
      the unsigned words at bytes 0..3 and 4..7. */
  function GetRationalFromId(items: seq<PropertyItem>, id: int): (r: Result<Option<Rational>, MetaError>)
    ensures r.Failure? <==> Undecodable(items, id, Ratio)
    ensures r.Failure? ==> r.error == Malformed(id)
    ensures r.Success? ==> (r.value.None? <==> GetItemFromId(items, id).None?)
    ensures r.Success? && r.value.Some? ==>
              var p := GetItemFromId(items, id).value;
              var q := r.value.value;
              && 0 <= q.numerator < 0x1_0000_0000
              && 0 <= q.denominator < 0x1_0000_0000
              && EncodeUInt32Le(q.numerator) == p.value[..4]
              && EncodeUInt32Le(q.denominator) == p.value[4..8]
  {
    match GetItemFromId(items, id)
    case None => Success(None)
    case Some(p) =>
      if |p.value| < 8 then Failure(Malformed(id))
      else
        UInt32BytesRoundTrip(p.value[..4]);
        UInt32BytesRoundTrip(p.value[4..8]);
        assert UInt32Le(p.value[..4], 0) == UInt32Le(p.value, 0);
        assert UInt32Le(p.value[4..8], 0) == UInt32Le(p.value, 4);
        Success(Some(Rational(UInt32Le(p.value, 0), UInt32Le(p.value, 4))))
  }

  /** A RATIONAL written as two little-endian words reads back as the same pair. */
  lemma RationalRoundTrip(id: int, num: int, den: int, rest: seq<PropertyItem>)
    requires 0 <= num < 0x1_0000_0000 && 0 <= den < 0x1_0000_0000
    ensures GetRationalFromId([PropertyItem(id, 8, EncodeUInt32Le(num) + EncodeUInt32Le(den))] + rest, id)
            == Success(Some(Rational(num, den)))
  {
    var bs := EncodeUInt32Le(num) + EncodeUInt32Le(den);
    var items := [PropertyItem(id, 8, bs)] + rest;
    assert GetItemFromId(items, id) == Some(items[0]);
    assert bs[..4] == EncodeUInt32Le(num);
    assert bs[4..8] == EncodeUInt32Le(den);
    UInt32RoundTrip(num);
    UInt32RoundTrip(den);
    assert UInt32Le(bs, 0) == UInt32Le(bs[..4], 0);
    assert UInt32Le(bs, 4) == UInt32Le(bs[4..8], 0);
  }

  /** The photo record as `RetrieveFromFile` fills it. `fNumberApex` and
      `shutterSpeedApex` are the APEX values the source turns into `FNumber` and
      `ShutterSpeed`; `dateTakenText` is the text handed to the date parser. */
  datatype Photo = Photo(
    fullPath: string,
    name: string,
    width: int,
    height: int,
    equipManufacturer: Option<string>,
    equipModel: Option<string>,
    softwareUsed: Option<string>,
    iso: Option<int>,
    focalLength: Option<Rational>,
    fNumberApex: Option<Rational>,
    shutterSpeedApex: Option<Rational>,
    dateTakenText: Option<string>)

  /** The tags `RetrieveFromFile` reads, in the order it reads them. */
  const ReadOrder: seq<(int, TagKind)> := [
    (TagMake, Ascii), (TagModel, Ascii), (TagSoftware, Ascii), (TagIso, Short),
    (TagFocalLength, Ratio), (TagApertureValue, Ratio), (TagShutterSpeedValue, Ratio),
    (TagDateTime, Ascii)]

  function FailsOn(items: seq<PropertyItem>): ((int, TagKind)) -> bool {
    (t: (int, TagKind)) => Undecodable(items, t.0, t.1)
  }

  /** The first tag, in reading order, whose value cannot be decoded. */
  function FirstFailure(items: seq<PropertyItem>): Option<int> {
    if Undecodable(items, TagMake, Ascii) then Some(TagMake)
    else if Undecodable(items, TagModel, Ascii) then Some(TagModel)
    else if Undecodable(items, TagSoftware, Ascii) then Some(TagSoftware)
    else if Undecodable(items, TagIso, Short) then Some(TagIso)
    else if Undecodable(items, TagFocalLength, Ratio) then Some(TagFocalLength)
    else if Undecodable(items, TagApertureValue, Ratio) then Some(TagApertureValue)
    else if Undecodable(items, TagShutterSpeedValue, Ratio) then Some(TagShutterSpeedValue)
    else if Undecodable(items, TagDateTime, Ascii) then Some(TagDateTime)
    else None
  }

  /** `FirstFailure` is the tag of the first match of `FailsOn` over `ReadOrder`. */
  lemma FirstFailureUnrolled(items: seq<PropertyItem>)
    ensures var first := FirstIndex(ReadOrder, FailsOn(items));
            && (first.None? <==> FirstFailure(items).None?)
            && (first.Some? ==> FirstFailure(items) == Some(ReadOrder[first.value].0))
  {
    var f := FailsOn(items);
    assert FirstIndexFrom(ReadOrder, f, 8) == None;
    assert FirstIndexFrom(ReadOrder, f, 7) == if f(ReadOrder[7]) then Some(7) else None;
    assert FirstIndexFrom(ReadOrder, f, 6) == if f(ReadOrder[6]) then Some(6) else FirstIndexFrom(ReadOrder, f, 7);
    assert FirstIndexFrom(ReadOrder, f, 5) == if f(ReadOrder[5]) then Some(5) else FirstIndexFrom(ReadOrder, f, 6);
    assert FirstIndexFrom(ReadOrder, f, 4) == if f(ReadOrder[4]) then Some(4) else FirstIndexFrom(ReadOrder, f, 5);
    assert FirstIndexFrom(ReadOrder, f, 3) == if f(ReadOrder[3]) then Some(3) else FirstIndexFrom(ReadOrder, f, 4);
    assert FirstIndexFrom(ReadOrder, f, 2) == if f(ReadOrder[2]) then Some(2) else FirstIndexFrom(ReadOrder, f, 3);
    assert FirstIndexFrom(ReadOrder, f, 1) == if f(ReadOrder[1]) then Some(1) else FirstIndexFrom(ReadOrder, f, 2);
    assert FirstIndexFrom(ReadOrder, f, 0) == if f(ReadOrder[0]) then Some(0) else FirstIndexFrom(ReadOrder, f, 1);
  }

  /** The text tags read first: camera make, camera model, software. */
  datatype Equipment = Equipment(make: Option<string>, model: Option<string>, software: Option<string>)

  /** The numeric tags read next: ISO, focal length, aperture and shutter APEX values. */
  datatype Exposure = Exposure(iso: Option<int>, focalLength: Option<Rational>,
                               aperture: Option<Rational>, shutter: Option<Rational>)

  /** The decoded values of the tags `RetrieveFromFile` reads. */
  datatype Tags = Tags(equipment: Equipment, exposure: Exposure, dateTime: Option<string>)

  function ReadEquipment(items: seq<PropertyItem>): (r: Result<Equipment, MetaError>)
    ensures r.Failure? <==> Undecodable(items, TagMake, Ascii) || Undecodable(items, TagModel, Ascii) ||
                            Undecodable(items, TagSoftware, Ascii)
    ensures r.Failure? ==> FirstFailure(items) == Some(r.error.id)
    ensures r.Success? ==>
              && (r.value.make.None? <==> GetItemFromId(items, TagMake).None?)
              && (r.value.model.None? <==> GetItemFromId(items, TagModel).None?)
              && (r.value.software.None? <==> GetItemFromId(items, TagSoftware).None?)
    ensures r.Success? ==>
              && GetStringFromId(items, TagMake) == Success(r.value.make)
              && GetStringFromId(items, TagModel) == Success(r.value.model)
              && GetStringFromId(items, TagSoftware) == Success(r.value.software)
  {
    var make :- GetStringFromId(items, TagMake);
    var model :- GetStringFromId(items, TagModel);
    var software :- GetStringFromId(items, TagSoftware);
    Success(Equipment(make, model, software))
  }

  function ReadExposure(items: seq<PropertyItem>): (r: Result<Exposure, MetaError>)
    requires !Undecodable(items, TagMake, Ascii) && !Undecodable(items, TagModel, Ascii) &&
             !Undecodable(items, TagSoftware, Ascii)
    ensures r.Failure? <==> Undecodable(items, TagIso, Short) || Undecodable(items, TagFocalLength, Ratio) ||
                            Undecodable(items, TagApertureValue, Ratio) ||
                            Undecodable(items, TagShutterSpeedValue, Ratio)
    ensures r.Failure? ==> FirstFailure(items) == Some(r.error.id)
    ensures r.Success? ==>
              && (r.value.iso.None? <==> GetItemFromId(items, TagIso).None?)
              && (r.value.iso.Some? ==> -32768 <= r.value.iso.value <= 32767)
              && (r.value.focalLength.None? <==> GetItemFromId(items, TagFocalLength).None?)
              && (r.value.aperture.None? <==> GetItemFromId(items, TagApertureValue).None?)
              && (r.value.shutter.None? <==> GetItemFromId(items, TagShutterSpeedValue).None?)
    ensures r.Success? ==>
              && GetIntFromId(items, TagIso) == Success(r.value.iso)
              && GetRationalFromId(items, TagFocalLength) == Success(r.value.focalLength)
              && GetRationalFromId(items, TagApertureValue) == Success(r.value.aperture)
              && GetRationalFromId(items, TagShutterSpeedValue) == Success(r.value.shutter)
  {
    var iso :- GetIntFromId(items, TagIso);
    var focal :- GetRationalFromId(items, TagFocalLength);
    var aperture :- GetRationalFromId(items, TagApertureValue);
    var shutter :- GetRationalFromId(items, TagShutterSpeedValue);
    Success(Exposure(iso, focal, aperture, shutter))
  }

  /** The eight reads of `RetrieveFromFile`, in its order; the first that throws
      ends the extraction. */
  function ReadTags(items: seq<PropertyItem>): (r: Result<Tags, MetaError>)
    ensures r.Failure? <==> FirstFailure(items).Some?
    ensures r.Failure? ==> FirstFailure(items) == Some(r.error.id)
    ensures r.Success? ==> ReadEquipment(items) == Success(r.value.equipment)
    ensures r.Success? ==> ReadExposure(items) == Success(r.value.exposure)
    ensures r.Success? ==> (r.value.dateTime.None? <==> GetItemFromId(items, TagDateTime).None?)
    ensures r.Success? ==> GetStringFromId(items, TagDateTime) == Success(r.value.dateTime)
  {
    var equipment :- ReadEquipment(items);
    var exposure :- ReadExposure(items);
    var dateTime :- GetStringFromId(items, TagDateTime);
    Success(Tags(equipment, exposure, dateTime))
  }

  /** `RetrieveFromFile` on an already decoded image. */
  function RetrieveFromFile(file: FileEntry, img: Image): (r: Result<Photo, MetaError>)
    ensures r.Failure? <==> FirstFailure(img.items).Some?
    ensures r.Failure? ==> FirstFailure(img.items) == Some(r.error.id)
    ensures r.Success? ==>
              var ph := r.value;
              && ph.fullPath == file.fullName && ph.name == file.name
              && ph.width == img.width && ph.height == img.height
              && (ph.equipManufacturer.None? <==> GetItemFromId(img.items, TagMake).None?)
              && (ph.equipModel.None? <==> GetItemFromId(img.items, TagModel).None?)
              && (ph.softwareUsed.None? <==> GetItemFromId(img.items, TagSoftware).None?)
              && (ph.iso.None? <==> GetItemFromId(img.items, TagIso).None?)
              && (ph.iso.Some? ==> -32768 <= ph.iso.value <= 32767)
              && (ph.focalLength.None? <==> GetItemFromId(img.items, TagFocalLength).None?)
              && (ph.fNumberApex.None? <==> GetItemFromId(img.items, TagApertureValue).None?)
              && (ph.shutterSpeedApex.None? <==> GetItemFromId(img.items, TagShutterSpeedValue).None?)
              && (ph.dateTakenText.Some? ==> |ph.dateTakenText.value| > 0)
              && (GetItemFromId(img.items, TagDateTime).None? ==> ph.dateTakenText.None?)
    ensures r.Success? ==>
              var ph := r.value;
              && GetStringFromId(img.items, TagMake) == Success(ph.equipManufacturer)
              && GetStringFromId(img.items, TagModel) == Success(ph.equipModel)
              && GetStringFromId(img.items, TagSoftware) == Success(ph.softwareUsed)
              && GetIntFromId(img.items, TagIso) == Success(ph.iso)
              && GetRationalFromId(img.items, TagFocalLength) == Success(ph.focalLength)
              && GetRationalFromId(img.items, TagApertureValue) == Success(ph.fNumberApex)
              && GetRationalFromId(img.items, TagShutterSpeedValue) == Success(ph.shutterSpeedApex)
              && var date := GetStringFromId(img.items, TagDateTime);
                 && date.Success?
                 && (ph.dateTakenText.Some? ==> date.value == ph.dateTakenText)
                 && (ph.dateTakenText.None? ==> date.value.None? || date.value == Some(""))
  {
    var t :- ReadTags(img.items);
    var date := if t.dateTime.Some? && |t.dateTime.value| > 0 then t.dateTime else None;
    Success(Photo(file.fullName, file.name, img.width, img.height,
                  t.equipment.make, t.equipment.model, t.equipment.software,
                  t.exposure.iso, t.exposure.focalLength, t.exposure.aperture, t.exposure.shutter, date))
  }

  /** Extraction fails exactly when some tag it reads cannot be decoded, and it
      reports the first such tag in reading order. */
  lemma RetrieveFailsOnFirstUndecodable(file: FileEntry, img: Image)
    ensures var r := RetrieveFromFile(file, img);
            var first := FirstIndex(ReadOrder, FailsOn(img.items));
            && (r.Failure? <==> first.Some?)
            && (r.Failure? ==> r.error == Malformed(ReadOrder[first.value].0))
  {
    FirstFailureUnrolled(img.items);
  }

  /** ISO as TIFF Revision 6.0 types it, an unsigned SHORT: the decoding
      `GetIntFromId` evidently intends for tag 0x8827. */
  function GetShortFromId(items: seq<PropertyItem>, id: int): (r: Result<Option<int>, MetaError>)
    ensures r.Failure? <==> Undecodable(items, id, Short)
    ensures r.Failure? ==> r.error == Malformed(id)
    ensures r.Success? ==> (r.value.None? <==> GetItemFromId(items, id).None?)
    ensures r.Success? && r.value.Some? ==>
              var p := GetItemFromId(items, id).value;
              && 0 <= r.value.value < 65536
              && r.value.value == p.value[0] as int + 256 * p.value[1] as int
  {
    match GetItemFromId(items, id)
    case None => Success(None)
    case Some(p) =>
      if |p.value| < 2 then Failure(Malformed(id))
      else Success(Some(UInt16Le(p.value[0], p.value[1])))
  }

  /** The signed read agrees with the unsigned one below 32768 and is 65536 too
      small from there on. */
  lemma SignedShortDiffersFromUnsigned(items: seq<PropertyItem>, id: int)
    requires GetShortFromId(items, id).Success? && GetShortFromId(items, id).value.Some?
    ensures var v := GetShortFromId(items, id).value.value;
            var w := GetIntFromId(items, id).value.value;
            (v < 32768 ==> w == v) && (v >= 32768 ==> w == v - 65536 && w < 0)
  {
  }

  /** A photograph taken at ISO 51200 stores 0xC800 (bytes 00 C8); the signed
      read reports -14336. */
  lemma IsoAbove32767ReadsNegative()
    ensures var items := [PropertyItem(TagIso, 2, [0x00, 0xC8])];
            && GetIntFromId(items, TagIso) == Success(Some(-14336))
            && GetShortFromId(items, TagIso) == Success(Some(51200))
  {
    var items := [PropertyItem(TagIso, 2, [0x00, 0xC8])];
    assert GetItemFromId(items, TagIso) == Some(items[0]);
  }

  /** The photo record of such an image carries the negative ISO. */
  lemma RecordedIsoIsNegative(file: FileEntry, width: int, height: int)
    ensures var img := Image(width, height, [PropertyItem(TagIso, 2, [0x00, 0xC8])]);
            RetrieveFromFile(file, img).Success? && RetrieveFromFile(file, img).value.iso == Some(-14336)
  {
    var items := [PropertyItem(TagIso, 2, [0x00, 0xC8])];
    IsoAbove32767ReadsNegative();
    assert forall id :: id != TagIso ==> GetItemFromId(items, id).None?;
  }
}

=== FILE: scanner_race.dfy ===
/** The scanner and the scheduler run side by side. The walk reaches units one
    at a time and hands each to the UI dispatcher (`BeginInvoke`), which adds
    it to `Folders` later; meanwhile the scheduling loop picks units. This
    module replays an interleaving of the three as a sequence of events. */
module ScannerRace {
  import opened Wrappers
  import opened FileTree
  import opened Folders
  import opened Analysis
  import opened Scheduling

  /** `Walk`: the walk reaches its next unit and queues its `Folders.Add` on the
      dispatcher. `Deliver`: the dispatcher runs the oldest queued `Add`.
      `Pass`: the scheduling loop makes one pass. */
  datatype Event = Walk | Deliver | Pass

  /** Units the walk has still to reach, `Add`s queued on the dispatcher, and
      the scheduler with the units added so far in its folder collection. */
  datatype Race = Race(toWalk: seq<ConvertFolder>, deferred: seq<ConvertFolder>, sched: Scheduler)

  /** `_hasAnalyzeDone`: the walk has returned. Its `Add`s may still be queued. */
  predicate AnalyzeDone(r: Race) {
    |r.toWalk| == 0
  }

  /** Every unit the walk found is in `Folders`. */
  predicate AllPublished(r: Race) {
    AnalyzeDone(r) && |r.deferred| == 0
  }

  function WalkNext(r: Race): (r': Race)
    ensures r'.sched == r.sched
    ensures |r'.toWalk| + |r'.deferred| == |r.toWalk| + |r.deferred|
    ensures !AnalyzeDone(r) ==> r'.deferred == r.deferred + [r.toWalk[0]]
  {
    if AnalyzeDone(r) then r
    else Race(r.toWalk[1..], r.deferred + [r.toWalk[0]], r.sched)
  }

  function DeliverNext(r: Race): (r': Race)
    ensures r'.toWalk == r.toWalk
    ensures |r'.sched.folders| == |r.sched.folders| + (if |r.deferred| == 0 then 0 else 1)
    ensures |r.deferred| > 0 ==> r'.sched.folders == r.sched.folders + [r.deferred[0]]
  {
    if |r.deferred| == 0 then r
    else Race(r.toWalk, r.deferred[1..], r.sched.(folders := r.sched.folders + [r.deferred[0]]))
  }

  /** One pass of the loop as written: it ends as soon as no unit in `Folders`
      is `Pending`, whether or not the walk has returned. */
  function PassAsWritten(r: Race, roots: Roots, targets: map<string, seq<FileEntry>>): (r': Race)
    ensures r'.toWalk == r.toWalk && r'.deferred == r.deferred
    ensures r.sched.phase == Running && GetNextFolder(r.sched.folders).None? ==> r'.sched.phase == Finished
  {
    if r.sched.phase != Running then r
    else r.(sched := ScheduleIteration(r.sched, roots, targets, false, false))
  }

  /** One pass with `_hasAnalyzeDone` added to the exit test: when no unit is
      `Pending` it waits until the walk has returned, but not for the `Add`s
      still queued on the dispatcher. */
  function PassFlagOnly(r: Race, roots: Roots, targets: map<string, seq<FileEntry>>): (r': Race)
    ensures r'.toWalk == r.toWalk && r'.deferred == r.deferred
    ensures r'.sched.phase == Finished && r.sched.phase == Running ==>
              AnalyzeDone(r) && GetNextFolder(r.sched.folders).None?
  {
    if r.sched.phase != Running then r
    else if GetNextFolder(r.sched.folders).None? && !AnalyzeDone(r) then r
    else r.(sched := ScheduleIteration(r.sched, roots, targets, false, false))
  }

  /** One pass with the corrected exit test: when no unit is `Pending` it waits
      until every unit the walk found is in `Folders`, as when the walk's
      completion flag is itself set through the dispatcher after its `Add`s. */
  function PassCorrected(r: Race, roots: Roots, targets: map<string, seq<FileEntry>>): (r': Race)
    ensures r'.toWalk == r.toWalk && r'.deferred == r.deferred
    ensures r'.sched.phase == Finished && r.sched.phase == Running ==>
              AllPublished(r) && GetNextFolder(r.sched.folders).None?
  {
    if r.sched.phase != Running then r
    else if GetNextFolder(r.sched.folders).None? && !AllPublished(r) then r
    else r.(sched := ScheduleIteration(r.sched, roots, targets, false, false))
  }

  /** Which exit test the scheduling loop uses. */
  datatype ExitTest = AsWritten | FlagOnly | Corrected

  function Apply(r: Race, ev: Event, test: ExitTest, roots: Roots, targets: map<string, seq<FileEntry>>): Race {
    match ev
    case Walk => WalkNext(r)
    case Deliver => DeliverNext(r)
    case Pass =>
      match test
      case AsWritten => PassAsWritten(r, roots, targets)
      case FlagOnly => PassFlagOnly(r, roots, targets)
      case Corrected => PassCorrected(r, roots, targets)
  }

  function Replay(r: Race, events: seq<Event>, test: ExitTest, roots: Roots,
                  targets: map<string, seq<FileEntry>>): Race
    decreases |events|
  {
    if |events| == 0 then r
    else Replay(Apply(r, events[0], test, roots, targets), events[1..], test, roots, targets)
  }

  /** The loop has only ended normally once every unit the walk found is in
      `Folders` and every one of them has been taken. */
  predicate EndsComplete(r: Race) {
    r.sched.phase == Finished ==>
      AllPublished(r) && forall k :: 0 <= k < |r.sched.folders| ==> r.sched.folders[k].status != Pending
  }

  /** One event under the corrected exit test keeps `EndsComplete`. */
  lemma CorrectedStepEndsComplete(r: Race, ev: Event, roots: Roots, targets: map<string, seq<FileEntry>>)
    requires EndsComplete(r)
    ensures EndsComplete(Apply(r, ev, Corrected, roots, targets))
  {
    if ev == Pass && r.sched.phase == Running && GetNextFolder(r.sched.folders).None? && AllPublished(r) {
      assert PassCorrected(r, roots, targets).sched == r.sched.(phase := Finished);
    }
  }

  /** With the corrected exit test, no interleaving of walk, dispatcher and
      loop lets the scheduler finish while a unit the walk found is waiting,
      in the dispatcher's queue or in `Folders`. */
  lemma {:induction false} CorrectedEndsComplete(r: Race, events: seq<Event>, roots: Roots,
                                                 targets: map<string, seq<FileEntry>>)
    requires EndsComplete(r)
    ensures EndsComplete(Replay(r, events, Corrected, roots, targets))
    decreases |events|
  {
    if |events| > 0 {
      CorrectedStepEndsComplete(r, events[0], roots, targets);
      CorrectedEndsComplete(Apply(r, events[0], Corrected, roots, targets), events[1..], roots, targets);
    }
  }

  /** Two units; the scheduler has the first in `Folders`, the walk is still
      on its way to the second. Two passes, then the walk reaching the second
      unit and the dispatcher adding it, leave the loop finished
      (`_hasScheduleDone` set) with the second unit `Pending`: nothing ever
      schedules it. */
  lemma AsWrittenLosesLateUnit(u0: ConvertFolder, u1: ConvertFolder, roots: Roots,
                               targets: map<string, seq<FileEntry>>)
    requires FreshUnit(u0) && FreshUnit(u1)
    requires MapToTarget(u0.path, roots).Success?
    ensures var start := Race([u1], [], Scheduler([u0], [], [], Running));
            var r := Replay(start, [Pass, Pass, Walk, Deliver], AsWritten, roots, targets);
            && AllPublished(r)
            && r.sched.phase == Finished
            && |r.sched.folders| == 2
            && r.sched.folders[1].status == Pending
            && !EndsComplete(r)
  {
    var start := Race([u1], [], Scheduler([u0], [], [], Running));
    var a := PassAsWritten(start, roots, targets);
    assert GetNextFolder(start.sched.folders) == Some(0);
    assert a.sched.phase == Running && a.sched.folders[0].status == Working;
    var b := PassAsWritten(a, roots, targets);
    assert b.sched.phase == Finished;
    var c := WalkNext(b);
    var d := DeliverNext(c);
    assert d.sched.folders[1] == u1;
    assert Replay(start, [Pass, Pass, Walk, Deliver], AsWritten, roots, targets) == d;
  }

  /** Waiting for `_hasAnalyzeDone` is not enough: the walk returns with the
      second unit's `Add` still on the dispatcher, the next pass finds nothing
      `Pending` and finishes, and the `Add` runs afterwards. */
  lemma FlagOnlyLosesDeferredUnit(u0: ConvertFolder, u1: ConvertFolder, roots: Roots,
                                  targets: map<string, seq<FileEntry>>)
    requires FreshUnit(u0) && FreshUnit(u1)
    requires MapToTarget(u0.path, roots).Success?
    ensures var start := Race([u1], [], Scheduler([u0], [], [], Running));
            var r := Replay(start, [Pass, Walk, Pass, Deliver], FlagOnly, roots, targets);
            && AllPublished(r)
            && r.sched.phase == Finished
            && |r.sched.folders| == 2
            && r.sched.folders[1].status == Pending
            && !EndsComplete(r)
  {
    var start := Race([u1], [], Scheduler([u0], [], [], Running));
    var a := PassFlagOnly(start, roots, targets);
    assert GetNextFolder(start.sched.folders) == Some(0);
    assert a.sched.phase == Running && a.sched.folders[0].status == Working;
    var b := WalkNext(a);
    assert AnalyzeDone(b) && b.deferred == [u1];
    var c := PassFlagOnly(b, roots, targets);
    assert c.sched.phase == Finished;
    var d := DeliverNext(c);
    assert d.sched.folders[1] == u1;
    assert Replay(start, [Pass, Walk, Pass, Deliver], FlagOnly, roots, targets) == d;
  }

  /** The same interleaving under the corrected exit test keeps the loop
      waiting for the queued `Add`, and its next pass takes the late unit. */
  lemma CorrectedTakesLateUnit(u0: ConvertFolder, u1: ConvertFolder, roots: Roots,
                               targets: map<string, seq<FileEntry>>)
    requires FreshUnit(u0) && FreshUnit(u1)
    requires MapToTarget(u0.path, roots).Success? && MapToTarget(u1.path, roots).Success?
    ensures var start := Race([u1], [], Scheduler([u0], [], [], Running));
            var r := Replay(start, [Pass, Walk, Pass, Deliver, Pass], Corrected, roots, targets);
            && r.sched.phase == Running
            && |r.sched.folders| == 2
            && r.sched.folders[0].status == Working
            && r.sched.folders[1].status == Working
  {
    var start := Race([u1], [], Scheduler([u0], [], [], Running));
    var a := PassCorrected(start, roots, targets);
    assert GetNextFolder(start.sched.folders) == Some(0);
    assert |a.sched.folders| == 1 && a.sched.folders[0].status == Working;
    var b := WalkNext(a);
    var c := PassCorrected(b, roots, targets);
    assert c == b;
    var d := DeliverNext(c);
    assert d.sched.folders == a.sched.folders + [u1];
    assert d.sched.folders[0].status == Working && d.sched.folders[1].status == Pending;
    assert GetNextFolder(d.sched.folders) == Some(1);
    var e := PassCorrected(d, roots, targets);
    assert Replay(start, [Pass, Walk, Pass, Deliver, Pass], Corrected, roots, targets) == e;
  }
}

=== FILE: scheduling.dfy ===
/** The folder scheduler (`ScheduleWork`): it picks the first `Pending` unit,
    marks it `Working`, reconciles the mirrored target directory and expands the
    unit into work items. Directory creation and file deletion are recorded as
    actions rather than performed. */
module Scheduling {
  import opened Wrappers
  import opened Text
  import opened Seqs
  import opened FileTree
  import opened Folders

  /** The source and target roots, as `DoSync` leaves them after `TrimEnd('\\')`. */
  datatype Roots = Roots(high: string, low: string)

  /** Why a path cannot be mapped: `String.Replace` threw on an empty source
      root, or the `DirectoryInfo`/`FileInfo` constructor threw on the empty
      path the replacement produced. */
  datatype MapError = EmptySourceRoot | EmptyTargetPath

  /** The mirrored location of a source path: `new DirectoryInfo(path.Replace(high, low))`
      (or `FileInfo`), which throws when the root is empty or the result is. */
  function MapToTarget(path: string, roots: Roots): (r: Result<string, MapError>)
    ensures r.Failure? <==> |roots.high| == 0 || Replace(path, roots.high, roots.low) == Success("")
    ensures r.Success? ==> |r.value| > 0 && Replace(path, roots.high, roots.low) == Success(r.value)
  {
    match Replace(path, roots.high, roots.low)
    case Failure(_) => Failure(EmptySourceRoot)
    case Success(target) => if |target| == 0 then Failure(EmptyTargetPath) else Success(target)
  }

  /** With both roots non-empty, every non-empty path can be mapped. */
  lemma MapToTargetDefined(path: string, roots: Roots)
    requires |roots.high| > 0 && |roots.low| > 0 && |path| > 0
    ensures MapToTarget(path, roots).Success?
  {
    ReplaceAllNonEmpty(path, roots.high, roots.low);
  }

  /** A path below the source root, in which the root occurs only as the prefix,
      maps to the target root followed by the same remainder, unless that is empty. */
  lemma MapToTargetBelowRoot(roots: Roots, rest: string)
    requires |roots.high| > 0
    requires !Occurs(roots.high, rest)
    ensures MapToTarget(roots.high + rest, roots) ==
              if |roots.low + rest| == 0 then Failure(EmptyTargetPath) else Success(roots.low + rest)
  {
    ReplaceRootPrefix(roots.high, rest, roots.low);
  }

  /** A path in which the source root's text does not occur (a root written
      with '/' or relative, while paths are the normalised `FullName`) maps to
      itself: the target is the source. */
  lemma {:induction false} UnmatchedRootMapsToSource(path: string, roots: Roots)
    requires |roots.high| > 0 && |path| > 0
    requires !Occurs(roots.high, path)
    ensures MapToTarget(path, roots) == Success(path)
  {
    ReplaceAbsent(path, roots.high, roots.low);
  }

  /** A filesystem effect the core decides on. */
  datatype FsAction =
    | CreateDir(path: string)
    | DeleteFile(file: FileEntry)
    | DeleteTarget(path: string)
    | Convert(source: FileEntry, target: string, longSize: int)

  /** Some source JPEG has the same `Name` as the target file, ignoring case. */
  predicate MatchesSource(jpegs: seq<FileEntry>, ef: FileEntry) {
    exists x :: x in jpegs && EqualsIgnoreCase(x.name, ef.name)
  }

  /** The deletion test of `DeleteTargetOnlyFiles`, as a function value so that
      every use of it is the same selection. */
  function TargetOnlyTest(jpegs: seq<FileEntry>): FileEntry -> bool {
    ef => !MatchesSource(jpegs, ef)
  }

  function SourceMatchTest(jpegs: seq<FileEntry>): FileEntry -> bool {
    ef => MatchesSource(jpegs, ef)
  }

  datatype Reconciled = Reconciled(folder: ConvertFolder, deleted: seq<FileEntry>)

  /** `DeleteTargetOnlyFiles`: the target files whose name matches no source JPEG
      are deleted, in listing order, and their number recorded on the folder. */
  function DeleteTargetOnlyFiles(source: ConvertFolder, existing: seq<FileEntry>): (r: Reconciled)
    ensures forall ef :: ef in r.deleted <==> ef in existing && !MatchesSource(source.jpegFiles, ef)
    ensures forall ef :: ef in existing && ef !in r.deleted ==> MatchesSource(source.jpegFiles, ef)
    ensures r.folder == source.(countDelete := |r.deleted|)
    ensures |r.deleted| <= |existing|
  {
    var toDelete := Filter(existing, TargetOnlyTest(source.jpegFiles));
    Reconciled(source.(countDelete := |toDelete|), toDelete)
  }

  /** The deletion list keeps the listing order: reconciling a listing split in
      two deletes the first part's files, then the second part's. */
  lemma DeletionKeepsListingOrder(source: ConvertFolder, a: seq<FileEntry>, b: seq<FileEntry>)
    ensures DeleteTargetOnlyFiles(source, a + b).deleted ==
            DeleteTargetOnlyFiles(source, a).deleted + DeleteTargetOnlyFiles(source, b).deleted
  {
    FilterAppend(a, b, TargetOnlyTest(source.jpegFiles));
  }

  /** Deleted files and files that match a source name together make up the listing. */
  lemma DeletionCountComplement(source: ConvertFolder, existing: seq<FileEntry>)
    ensures DeleteTargetOnlyFiles(source, existing).folder.countDelete +
            |Filter(existing, SourceMatchTest(source.jpegFiles))| == |existing|
  {
    FilterPartition(existing, TargetOnlyTest(source.jpegFiles), SourceMatchTest(source.jpegFiles));
  }

  /** One deletion per file, in order. */
  function DeleteActions(files: seq<FileEntry>): (acts: seq<FsAction>)
    ensures |acts| == |files|
    ensures forall k :: 0 <= k < |files| ==> acts[k] == DeleteFile(files[k])
  {
    seq(|files|, k requires 0 <= k < |files| => DeleteFile(files[k]))
  }

  /** The work items of one folder: one per JPEG file, in file order. */
  function ItemsFor(i: nat, files: seq<FileEntry>): (r: seq<WorkItem>)
    ensures |r| == |files|
    ensures forall k :: 0 <= k < |files| ==> r[k] == WorkItem(i, files[k])
  {
    seq(|files|, k requires 0 <= k < |files| => WorkItem(i, files[k]))
  }

  /** Where the scheduling loop stands: still `Running`; `Finished` after the loop
      ended normally, on a cancel read by the loop condition or when no folder
      is `Pending` (`_hasScheduleDone` set); `Aborted` after the cancel check
      that follows reconciliation returned early (`_hasScheduleDone` left unset);
      `Faulted` when the path mapping threw: nothing catches the exception on
      the thread-pool thread, so by .NET's default policy it ends the process;
      `NothingFound` when the walk published no folder and `ScheduleWork`
      cleared `IsSyncing` and returned without creating the work queue or
      setting `_hasScheduleDone` (see `EngineLoop` for what the engine does
      then). */
  datatype Phase = Running | Finished | Aborted | Faulted | NothingFound

  datatype Scheduler = Scheduler(
    folders: seq<ConvertFolder>,
    queue: seq<WorkItem>,
    actions: seq<FsAction>,
    phase: Phase)

  /** Entry of `ScheduleWork` once the walk has published its folders. */
  function StartSchedule(folders: seq<ConvertFolder>): (s: Scheduler)
    ensures s.folders == folders && s.queue == [] && s.actions == []
    ensures s.phase == NothingFound <==> |folders| == 0
    ensures s.phase == Running <==> |folders| > 0
  {
    Scheduler(folders, [], [], if |folders| == 0 then NothingFound else Running)
  }

  /** One pass of the scheduling loop. `cancelAtTop` is the value of
      `_isCanceling` read by the loop condition, `cancelAfterReconcile` the value
      read after reconciliation; `targets` lists the existing target directories. */
  function ScheduleIteration(s: Scheduler, roots: Roots, targets: map<string, seq<FileEntry>>,
                             cancelAtTop: bool, cancelAfterReconcile: bool): (r: Scheduler)
    requires s.phase == Running
    ensures NoNewPending(s.folders, r.folders)
    ensures cancelAtTop || GetNextFolder(s.folders).None? ==> r == s.(phase := Finished)
    ensures !cancelAtTop && GetNextFolder(s.folders).Some? ==>
              var i := GetNextFolder(s.folders).value;
              && r.folders[i].status == Working
              && r.folders[i].path == s.folders[i].path
              && r.folders[i].countAll == s.folders[i].countAll
              && r.folders[i].countDone == s.folders[i].countDone
              && r.folders[i].jpegFiles == s.folders[i].jpegFiles
              && (forall k :: 0 <= k < |s.folders| && k != i ==> r.folders[k] == s.folders[k])
              && (r.phase == Faulted <==> MapToTarget(s.folders[i].path, roots).Failure?)
              && (r.phase == Aborted <==> MapToTarget(s.folders[i].path, roots).Success? && cancelAfterReconcile)
              && (r.phase == Running <==> MapToTarget(s.folders[i].path, roots).Success? && !cancelAfterReconcile)
              && (r.phase == Running ==> r.queue == s.queue + ItemsFor(i, s.folders[i].jpegFiles))
              && (r.phase != Running ==> r.queue == s.queue)
              && (r.phase == Faulted ==> r.actions == s.actions)
              && (r.phase != Faulted ==>
                    var target := MapToTarget(s.folders[i].path, roots).value;
                    if target in targets then
                      var rec := DeleteTargetOnlyFiles(s.folders[i], targets[target]);
                      && r.folders[i].countDelete == |rec.deleted|
                      && r.actions == s.actions + DeleteActions(rec.deleted)
                    else
                      && r.folders[i].countDelete == s.folders[i].countDelete
                      && r.actions == s.actions + [CreateDir(target)])
  {
    if cancelAtTop then s.(phase := Finished)
    else match GetNextFolder(s.folders)
      case None => s.(phase := Finished)
      case Some(i) =>
        var working := s.folders[i].(status := Working);
        match MapToTarget(working.path, roots)
        case Failure(_) => Scheduler(s.folders[i := working], s.queue, s.actions, Faulted)
        case Success(target) =>
          var (f, acts) :=
            if target in targets then
              var rec := DeleteTargetOnlyFiles(working, targets[target]);
              (rec.folder, DeleteActions(rec.deleted))
            else (working, [CreateDir(target)]);
          var folders := s.folders[i := f];
          if cancelAfterReconcile then Scheduler(folders, s.queue, s.actions + acts, Aborted)
          else Scheduler(folders, s.queue + ItemsFor(i, f.jpegFiles), s.actions + acts, Running)
  }

  /** Number of `Pending` folders. */
  function PendingCount(folders: seq<ConvertFolder>): nat
    decreases |folders|
  {
    if |folders| == 0 then 0
    else (if folders[0].status == Pending then 1 else 0) + PendingCount(folders[1..])
  }

  /** Taking a folder out of `Pending` while no other folder changes lowers the count. */
  lemma {:induction false} PendingCountDrops(folders: seq<ConvertFolder>, i: nat, f: ConvertFolder)
    requires i < |folders| && folders[i].status == Pending && f.status != Pending
    ensures PendingCount(folders[i := f]) == PendingCount(folders) - 1
    decreases |folders|
  {
    if i > 0 {
      assert folders[i := f][1..] == folders[1..][i - 1 := f];
      PendingCountDrops(folders[1..], i - 1, f);
    } else {
      assert folders[i := f][1..] == folders[1..];
    }
  }

  /** Cancellation as the source observes it: `_isCanceling` is set once, at
      checkpoint `cancelAt`, and stays set. Loop pass `n` reads it at checkpoint
      `2n` (loop condition) and `2n + 1` (after reconciliation). */
  predicate CanceledAt(cancelAt: Option<nat>, checkpoint: nat) {
    cancelAt.Some? && cancelAt.value <= checkpoint
  }

  /** `ScheduleWork`'s loop from pass `n` on, until it leaves `Running`. */
  function ScheduleRun(s: Scheduler, roots: Roots, targets: map<string, seq<FileEntry>>,
                       cancelAt: Option<nat>, n: nat): (r: Scheduler)
    ensures NoNewPending(s.folders, r.folders)
    ensures r.phase != Running
    ensures s.phase != Running ==> r == s
    decreases PendingCount(s.folders) + (if s.phase == Running then 1 else 0)
  {
    if s.phase != Running then s
    else
      var next := ScheduleIteration(s, roots, targets, CanceledAt(cancelAt, 2 * n), CanceledAt(cancelAt, 2 * n + 1));
      if next.phase == Running then
        var i := GetNextFolder(s.folders).value;
        assert next.folders == s.folders[i := next.folders[i]];
        PendingCountDrops(s.folders, i, next.folders[i]);
        NoNewPendingTransitive(s.folders, next.folders, ScheduleRun(next, roots, targets, cancelAt, n + 1).folders);
        ScheduleRun(next, roots, targets, cancelAt, n + 1)
      else next
  }

  /** A folder the scheduler has taken is never taken again: after its pass,
      and whatever progress the engine makes meanwhile, the next pick lies
      strictly later in the collection. */
  lemma PickedAtMostOnce(s: Scheduler, roots: Roots, targets: map<string, seq<FileEntry>>,
                         cancelAfterReconcile: bool, later: seq<ConvertFolder>)
    requires s.phase == Running && GetNextFolder(s.folders).Some?
    requires NoNewPending(ScheduleIteration(s, roots, targets, false, cancelAfterReconcile).folders, later)
    ensures GetNextFolder(later).None? || GetNextFolder(later).value > GetNextFolder(s.folders).value
  {
    var r := ScheduleIteration(s, roots, targets, false, cancelAfterReconcile);
    NoNewPendingTransitive(s.folders, r.folders, later);
    NextPickIsLater(s.folders, later, GetNextFolder(s.folders).value);
  }
}

=== FILE: scheduling_run.dfy ===
/** The scheduling loop run to its end without cancellation. */
module SchedulingRun {
  import opened Wrappers
  import opened FileTree
  import opened Folders
  import opened Scheduling

  /** The work items of the first `m` units, unit after unit. */
  function ItemsUpTo(units: seq<ConvertFolder>, m: nat): (r: seq<WorkItem>)
    requires m <= |units|
    decreases m
  {
    if m == 0 then [] else ItemsUpTo(units, m - 1) + ItemsFor(m - 1, units[m - 1].jpegFiles)
  }

  /** `f` is unit `u` after the scheduler took it: `Working`, same path, files and counts. */
  predicate ScheduledAs(u: ConvertFolder, f: ConvertFolder) {
    && f.status == Working
    && f.path == u.path
    && f.countAll == u.countAll
    && f.countDone == u.countDone
    && f.jpegFiles == u.jpegFiles
  }

  /** The scheduler has taken exactly the first `m` units and queued their items. */
  predicate ScheduledPrefix(units: seq<ConvertFolder>, s: Scheduler, m: nat) {
    && m <= |units|
    && |s.folders| == |units|
    && s.phase == Running
    && (forall k :: 0 <= k < m ==> ScheduledAs(units[k], s.folders[k]))
    && (forall k :: m <= k < |units| ==> s.folders[k] == units[k])
    && s.queue == ItemsUpTo(units, m)
  }

  lemma {:induction false} RunFromPrefix(units: seq<ConvertFolder>, s: Scheduler, m: nat, roots: Roots,
                                         targets: map<string, seq<FileEntry>>, n: nat)
    requires forall k :: 0 <= k < |units| ==> units[k].status == Pending
    requires forall k :: 0 <= k < |units| ==> MapToTarget(units[k].path, roots).Success?
    requires ScheduledPrefix(units, s, m)
    ensures var r := ScheduleRun(s, roots, targets, None, n);
            && r.phase == Finished
            && |r.folders| == |units|
            && (forall k :: 0 <= k < |units| ==> ScheduledAs(units[k], r.folders[k]))
            && r.queue == ItemsUpTo(units, |units|)
    decreases |units| - m
  {
    var next := ScheduleIteration(s, roots, targets, false, false);
    if m == |units| {
      assert GetNextFolder(s.folders).None?;
    } else {
      assert s.folders[m].status == Pending;
      assert GetNextFolder(s.folders) == Some(m);
      assert ScheduledPrefix(units, next, m + 1);
      RunFromPrefix(units, next, m + 1, roots, targets, n + 1);
    }
  }

  /** Without cancellation the scheduler takes every published unit once, in
      publication order, leaves each `Working`, queues one item per JPEG file
      unit after unit, and ends with the loop's normal exit. */
  lemma ScheduleAllWithoutCancel(units: seq<ConvertFolder>, roots: Roots, targets: map<string, seq<FileEntry>>)
    requires |units| > 0
    requires forall k :: 0 <= k < |units| ==> units[k].status == Pending
    requires forall k :: 0 <= k < |units| ==> MapToTarget(units[k].path, roots).Success?
    ensures var r := ScheduleRun(StartSchedule(units), roots, targets, None, 0);
            && r.phase == Finished
            && |r.folders| == |units|
            && (forall k :: 0 <= k < |units| ==> ScheduledAs(units[k], r.folders[k]))
            && r.queue == ItemsUpTo(units, |units|)
  {
    RunFromPrefix(units, StartSchedule(units), 0, roots, targets, 0);
  }
}

=== FILE: seqs.dfy ===
/** The two LINQ shapes the source uses on lists: order-preserving selection
    (`Where(...).ToList()`) and the first match (`FirstOrDefault(...)`). */
module Seqs {
  import opened Wrappers

  /** Index of the first element from `from` on that satisfies `p`, if any. */
  function FirstIndexFrom<T>(s: seq<T>, p: T -> bool, from: nat): (r: Option<nat>)
    requires from <= |s|
    ensures r.Some? ==> from <= r.value < |s| && p(s[r.value]) &&
                        forall j :: from <= j < r.value ==> !p(s[j])
    ensures r.None? <==> forall j :: from <= j < |s| ==> !p(s[j])
    decreases |s| - from
  {
    if from == |s| then None
    else if p(s[from]) then Some(from)
    else FirstIndexFrom(s, p, from + 1)
  }

  /** `FirstOrDefault(p)`, as an index: the first element satisfying `p`. */
  function FirstIndex<T>(s: seq<T>, p: T -> bool): (r: Option<nat>)
    ensures r.Some? ==> r.value < |s| && p(s[r.value]) && forall j :: 0 <= j < r.value ==> !p(s[j])
    ensures r.None? <==> forall j :: 0 <= j < |s| ==> !p(s[j])
  {
    FirstIndexFrom(s, p, 0)
  }

  function Filter<T(!new)>(s: seq<T>, keep: T -> bool): (r: seq<T>)
    ensures |r| <= |s|
    ensures forall x :: x in r <==> x in s && keep(x)
    decreases |s|
  {
    if |s| == 0 then []
    else (if keep(s[0]) then [s[0]] else []) + Filter(s[1..], keep)
  }

  /** Selection commutes with concatenation, so it keeps the listing order. */
  lemma {:induction false} FilterAppend<T(!new)>(a: seq<T>, b: seq<T>, keep: T -> bool)
    ensures Filter(a + b, keep) == Filter(a, keep) + Filter(b, keep)
    decreases |a|
  {
    if |a| > 0 {
      assert (a + b)[1..] == a[1..] + b;
      FilterAppend(a[1..], b, keep);
    } else {
      assert a + b == b;
    }
  }

  /** What is selected and what is dropped together account for the whole input. */
  lemma {:induction false} FilterPartition<T(!new)>(s: seq<T>, keep: T -> bool, drop: T -> bool)
    requires forall x :: drop(x) <==> !keep(x)
    ensures |Filter(s, keep)| + |Filter(s, drop)| == |s|
    decreases |s|
  {
    if |s| > 0 {
      FilterPartition(s[1..], keep, drop);
    }
  }
}

=== FILE: session.dfy ===
/** The Sync button (`DoSync`) across the runs of one session: a click while a
    run is going requests cancellation, any other click trims the roots and
    starts a run. */
module Session {
  import opened Wrappers
  import opened Text
  import opened FileTree
  import opened Folders
  import opened Scheduling

  /** `IsSyncing`, `_isCanceling` and the two root settings. */
  datatype Session = Session(syncing: bool, canceling: bool, high: string, low: string)

  function RootsOf(s: Session): Roots {
    Roots(s.high, s.low)
  }

  /** `DoSync` as written: starting a run leaves `_isCanceling` as it was. */
  function DoSyncAsWritten(s: Session): (r: Session)
    ensures s.syncing ==> r == s.(canceling := true)
    ensures !s.syncing ==> r.syncing && r.canceling == s.canceling
    ensures !s.syncing ==> r.high == TrimEnd(s.high, '\\') && r.low == TrimEnd(s.low, '\\')
  {
    if s.syncing then s.(canceling := true)
    else Session(true, s.canceling, TrimEnd(s.high, '\\'), TrimEnd(s.low, '\\'))
  }

  /** `DoSync` clearing `_isCanceling` when it starts a run. */
  function DoSyncCorrected(s: Session): (r: Session)
    ensures s.syncing ==> r == s.(canceling := true)
    ensures !s.syncing ==> r.syncing && !r.canceling
    ensures !s.syncing ==> r.high == TrimEnd(s.high, '\\') && r.low == TrimEnd(s.low, '\\')
  {
    if s.syncing then s.(canceling := true)
    else Session(true, false, TrimEnd(s.high, '\\'), TrimEnd(s.low, '\\'))
  }

  /** The run ends: the engine's `IsSyncing = false`. */
  function RunEnded(s: Session): (r: Session)
    ensures !r.syncing && r.canceling == s.canceling && r.high == s.high && r.low == s.low
  {
    s.(syncing := false)
  }

  /** Start a run, cancel it, let it end, start the next one: as written, the
      next run starts cancelled, and its scheduler's first pass ends the loop
      without taking any folder. */
  lemma CancelSticksAsWritten(s: Session, units: seq<ConvertFolder>, targets: map<string, seq<FileEntry>>)
    requires !s.syncing && |units| > 0
    ensures var next := DoSyncAsWritten(RunEnded(DoSyncAsWritten(DoSyncAsWritten(s))));
            && next.syncing && next.canceling
            && ScheduleIteration(StartSchedule(units), RootsOf(next), targets, next.canceling, next.canceling)
               == StartSchedule(units).(phase := Finished)
  {
  }

  /** The same clicks with the corrected `DoSync`: the next run starts clear,
      and its first pass takes the first folder and queues its items. */
  lemma CorrectedNextRunSchedules(s: Session, units: seq<ConvertFolder>, targets: map<string, seq<FileEntry>>)
    requires !s.syncing && |units| > 0 && units[0].status == Pending
    requires MapToTarget(units[0].path, RootsOf(DoSyncCorrected(s))).Success?
    ensures var next := DoSyncCorrected(RunEnded(DoSyncCorrected(DoSyncCorrected(s))));
            var r := ScheduleIteration(StartSchedule(units), RootsOf(next), targets, next.canceling, next.canceling);
            && next.syncing && !next.canceling
            && r.phase == Running
            && r.folders[0].status == Working
            && r.queue == ItemsFor(0, units[0].jpegFiles)
  {
    var next := DoSyncCorrected(RunEnded(DoSyncCorrected(DoSyncCorrected(s))));
    TrimEndIdempotent(s.high, '\\');
    TrimEndIdempotent(s.low, '\\');
    assert RootsOf(next) == RootsOf(DoSyncCorrected(s));
    assert GetNextFolder(units) == Some(0);
  }
}

=== FILE: sync.dfy ===
/** A whole sync run without cancellation, composed from the walk, the
    scheduler and the engine as sequential stages. */
module Sync {
  import opened Wrappers
  import opened FileTree
  import opened Folders
  import opened Analysis
  import opened Scheduling
  import opened SchedulingRun
  import opened Execution

  lemma {:induction false} CountForAppend(a: seq<WorkItem>, b: seq<WorkItem>, k: nat)
    ensures CountFor(a + b, k) == CountFor(a, k) + CountFor(b, k)
    decreases |a|
  {
    if |a| == 0 {
      assert a + b == b;
    } else {
      assert (a + b)[1..] == a[1..] + b;
      CountForAppend(a[1..], b, k);
    }
  }

  lemma {:induction false} CountForItems(i: nat, files: seq<FileEntry>, k: nat)
    ensures CountFor(ItemsFor(i, files), k) == if k == i then |files| else 0
    decreases |files|
  {
    if |files| > 0 {
      assert ItemsFor(i, files)[1..] == ItemsFor(i, files[1..]);
      CountForItems(i, files[1..], k);
    }
  }

  /** The queue the scheduler fills holds, for each unit, as many items as the
      unit has JPEG files, and no item for a unit not yet taken. */
  lemma {:induction false} CountForItemsUpTo(units: seq<ConvertFolder>, m: nat, k: nat)
    requires m <= |units|
    ensures ItemsInRange(ItemsUpTo(units, m), m)
    ensures CountFor(ItemsUpTo(units, m), k) == if k < m then |units[k].jpegFiles| else 0
    decreases m
  {
    if m > 0 {
      CountForItemsUpTo(units, m - 1, k);
      CountForAppend(ItemsUpTo(units, m - 1), ItemsFor(m - 1, units[m - 1].jpegFiles), k);
      CountForItems(m - 1, units[m - 1].jpegFiles, k);
    }
  }

  /** Every scheduled item names a JPEG file of the unit it points at. */
  lemma {:induction false} ItemsUpToFiles(units: seq<ConvertFolder>, m: nat)
    requires m <= |units|
    ensures forall j :: 0 <= j < |ItemsUpTo(units, m)| ==>
              && ItemsUpTo(units, m)[j].folder < m
              && ItemsUpTo(units, m)[j].file in units[ItemsUpTo(units, m)[j].folder].jpegFiles
    decreases m
  {
    if m > 0 {
      ItemsUpToFiles(units, m - 1);
      var a := ItemsUpTo(units, m - 1);
      var b := ItemsFor(m - 1, units[m - 1].jpegFiles);
      var q: seq<WorkItem> := a + b;
      assert ItemsUpTo(units, m) == q;
      forall j | 0 <= j < |q|
        ensures q[j].folder < m && q[j].file in units[q[j].folder].jpegFiles
      {
        if j < |a| {
          assert q[j] == a[j];
          assert a[j].folder < m - 1 && a[j].file in units[a[j].folder].jpegFiles;
        } else {
          var i := j - |a|;
          assert q[j] == b[i] == WorkItem(m - 1, units[m - 1].jpegFiles[i]);
        }
      }
    }
  }

  /** Without a failing file in the queue, no task throws. */
  lemma {:induction false} NoFailingNoThrow(q: seq<WorkItem>, k: nat, e: Engine)
    requires forall j :: 0 <= j < |q| ==> q[j].file.fullName !in e.failing
    ensures ThrownFor(q, k, e) == 0 && Thrown(q, e) == 0
    decreases |q|
  {
    if |q| > 0 {
      assert !Throws(q[0], e, false);
      NoFailingNoThrow(q[1..], k, e);
    }
  }

  /** A throwing item is counted against its folder. */
  lemma {:induction false} ThrowCounted(q: seq<WorkItem>, j: nat, e: Engine)
    requires j < |q| && Throws(q[j], e, false)
    ensures ThrownFor(q, q[j].folder, e) >= 1
    ensures Thrown(q, e) >= 1
    decreases j
  {
    if j > 0 {
      ThrowCounted(q[1..], j - 1, e);
      assert q[1..][j - 1] == q[j];
    }
  }

  /** What the scheduler leaves for the engine: every folder has nothing done,
      at least one file, and exactly `countAll` items queued. */
  predicate ReadyToDrain(folders: seq<ConvertFolder>, q: seq<WorkItem>) {
    && ItemsInRange(q, |folders|)
    && forall k :: 0 <= k < |folders| ==>
         folders[k].countDone == 0 && folders[k].countAll >= 1 && CountFor(q, k) == folders[k].countAll
  }

  /** Draining such a queue, when no conversion throws, leaves every folder
      `Done` and full, and every running slot given back. */
  lemma DrainCompletes(folders: seq<ConvertFolder>, q: seq<WorkItem>, e: Engine)
    requires ReadyToDrain(folders, q)
    requires AllMappable(q, e.roots)
    requires forall j :: 0 <= j < |q| ==> q[j].file.fullName !in e.failing
    ensures var run := RunAll(folders, q, e);
            && run.Success?
            && |run.value.folders| == |folders|
            && run.value.leaked == 0
            && forall k :: 0 <= k < |folders| ==>
                 && run.value.folders[k].status == Done
                 && run.value.folders[k].countDone == run.value.folders[k].countAll == folders[k].countAll
  {
    forall k | 0 <= k < |folders|
      ensures ThrownFor(q, k, e) == 0
    {
      NoFailingNoThrow(q, k, e);
    }
    NoFailingNoThrow(q, 0, e);
  }

  /** Draining the same queue when one item's conversion throws leaves that
      item's folder short of its total, in the status it had, and a running
      slot taken for good. */
  lemma DrainStallsOnThrow(folders: seq<ConvertFolder>, q: seq<WorkItem>, e: Engine, j: nat)
    requires ReadyToDrain(folders, q)
    requires AllMappable(q, e.roots)
    requires j < |q| && Throws(q[j], e, false)
    ensures var run := RunAll(folders, q, e);
            var k := q[j].folder;
            && run.Success?
            && run.value.leaked >= 1
            && run.value.folders[k].countDone < run.value.folders[k].countAll
            && run.value.folders[k].status == folders[k].status
  {
    ThrowCounted(q, j, e);
  }

  /** The folders and queue the scheduler leaves behind are ready to drain. */
  lemma {:induction false} ScheduledReady(units: seq<ConvertFolder>, folders: seq<ConvertFolder>, q: seq<WorkItem>)
    requires forall k :: 0 <= k < |units| ==> FreshUnit(units[k])
    requires |folders| == |units|
    requires forall k :: 0 <= k < |units| ==> ScheduledAs(units[k], folders[k])
    requires q == ItemsUpTo(units, |units|)
    ensures ReadyToDrain(folders, q)
    ensures forall k :: 0 <= k < |folders| ==> folders[k].countAll == units[k].countAll
  {
    CountForItemsUpTo(units, |units|, 0);
    forall k | 0 <= k < |folders|
      ensures folders[k].countDone == 0 && folders[k].countAll >= 1 && CountFor(q, k) == folders[k].countAll
    {
      CountForItemsUpTo(units, |units|, k);
    }
  }

  /** Every unit's directory and every one of its files can be mapped to the
      target tree, and no file's conversion throws. */
  predicate Runnable(units: seq<ConvertFolder>, e: Engine) {
    forall k :: 0 <= k < |units| ==>
      && MapToTarget(units[k].path, e.roots).Success?
      && forall f :: f in units[k].jpegFiles ==>
           MapToTarget(f.fullName, e.roots).Success? && f.fullName !in e.failing
  }

  /** The scheduler's result, drained by an engine under which every path
      maps and no conversion throws, leaves every folder `Done` and full. */
  lemma DrainScheduled(units: seq<ConvertFolder>, folders: seq<ConvertFolder>, q: seq<WorkItem>, e: Engine)
    requires forall k :: 0 <= k < |units| ==> FreshUnit(units[k])
    requires Runnable(units, e)
    requires |folders| == |units|
    requires forall k :: 0 <= k < |units| ==> ScheduledAs(units[k], folders[k])
    requires q == ItemsUpTo(units, |units|)
    ensures ItemsInRange(q, |folders|)
    ensures var run := RunAll(folders, q, e);
            && run.Success?
            && run.value.leaked == 0
            && |run.value.folders| == |units|
            && forall k :: 0 <= k < |units| ==>
                 && run.value.folders[k].status == Done
                 && run.value.folders[k].countDone == run.value.folders[k].countAll == units[k].countAll
  {
    ScheduledReady(units, folders, q);
    ItemsUpToFiles(units, |units|);
    DrainCompletes(folders, q, e);
  }

  /** A run that starts with `_isCanceling` clear and is not cancelled, in
      which every path maps and no conversion throws, ends with every folder
      the walk found `Done`, its done count equal to its JPEG count. */
  lemma SyncCompletesEveryFolder(root: Dir, targets: map<string, seq<FileEntry>>, e: Engine)
    requires |AnalyseFolder(root)| > 0
    requires Runnable(AnalyseFolder(root), e)
    ensures var units := AnalyseFolder(root);
            var sched := ScheduleRun(StartSchedule(units), e.roots, targets, None, 0);
            && sched.phase == Finished
            && ItemsInRange(sched.queue, |sched.folders|)
            && var run := RunAll(sched.folders, sched.queue, e);
               && run.Success?
               && run.value.leaked == 0
               && |run.value.folders| == |units|
               && forall k :: 0 <= k < |units| ==>
                    && run.value.folders[k].status == Done
                    && run.value.folders[k].countDone == run.value.folders[k].countAll == units[k].countAll
  {
    var units := AnalyseFolder(root);
    assert forall k :: 0 <= k < |units| ==> FreshUnit(units[k]);
    ScheduleAllWithoutCancel(units, e.roots, targets);
    var sched := ScheduleRun(StartSchedule(units), e.roots, targets, None, 0);
    DrainScheduled(units, sched.folders, sched.queue, e);
  }
}

=== FILE: text.dfy ===
/** The .NET string and path operations the sync code relies on: the
    `InvariantCultureIgnoreCase` comparison (ASCII folding only), `String.TrimEnd(char)`, `String.Replace`
    and `Path.GetExtension`. */
module Text {
  import opened Wrappers

  /** Upper-casing of the ASCII letters; every other character is its own fold. */
  function UpperAscii(c: char): char {
    if 'a' <= c <= 'z' then (c as int - 32) as char else c
  }

  /** `StringComparison.InvariantCultureIgnoreCase` equality, restricted to ASCII folding. */
  predicate EqualsIgnoreCase(a: string, b: string) {
    |a| == |b| && forall i :: 0 <= i < |a| ==> UpperAscii(a[i]) == UpperAscii(b[i])
  }

  lemma EqualsIgnoreCaseIsEquivalence(a: string, b: string, c: string)
    ensures EqualsIgnoreCase(a, a)
    ensures EqualsIgnoreCase(a, b) ==> EqualsIgnoreCase(b, a)
    ensures EqualsIgnoreCase(a, b) && EqualsIgnoreCase(b, c) ==> EqualsIgnoreCase(a, c)
  {
  }

  /** `s.TrimEnd(c)`: drop every trailing occurrence of `c`. */
  function TrimEnd(s: string, c: char): (r: string)
    ensures r <= s
    ensures |r| == 0 || r[|r| - 1] != c
    ensures forall i :: |r| <= i < |s| ==> s[i] == c
    decreases |s|
  {
    if |s| > 0 && s[|s| - 1] == c then TrimEnd(s[..|s| - 1], c) else s
  }

  /** The three properties of `TrimEnd` pin its result down: any prefix that does
      not end in `c` and leaves only `c`s behind is the trimmed string. */
  lemma TrimEndUnique(s: string, c: char, r: string)
    requires r <= s
    requires |r| == 0 || r[|r| - 1] != c
    requires forall i :: |r| <= i < |s| ==> s[i] == c
    ensures r == TrimEnd(s, c)
  {
  }

  lemma TrimEndIdempotent(s: string, c: char)
    ensures TrimEnd(TrimEnd(s, c), c) == TrimEnd(s, c)
  {
  }

  /** `p` occurs somewhere in `s` (ordinal). */
  predicate Occurs(p: string, s: string) {
    exists i :: 0 <= i <= |s| - |p| && OccursAt(p, s, i)
  }

  /** `p` occurs in `s` starting at index `i`. */
  predicate OccursAt(p: string, s: string, i: int) {
    0 <= i <= |s| - |p| && s[i..i + |p|] == p
  }

  /** Ordinal replacement of every non-overlapping occurrence of `pattern`,
      scanning left to right, as `String.Replace(string, string)` does. */
  function ReplaceAll(s: string, pattern: string, replacement: string): string
    requires |pattern| > 0
    decreases |s|
  {
    if |s| == 0 then ""
    else if pattern <= s then replacement + ReplaceAll(s[|pattern|..], pattern, replacement)
    else [s[0]] + ReplaceAll(s[1..], pattern, replacement)
  }

  datatype TextError = EmptyOldValue

  /** `s.Replace(pattern, replacement)`: throws `ArgumentException` on an empty `pattern`. */
  function Replace(s: string, pattern: string, replacement: string): (r: Result<string, TextError>)
    ensures r.Failure? <==> |pattern| == 0
  {
    if |pattern| == 0 then Failure(EmptyOldValue) else Success(ReplaceAll(s, pattern, replacement))
  }

  /** A path in which the source root occurs only as its prefix is mapped to the
      target root followed by the remainder of the path. */
  lemma ReplaceRootPrefix(root: string, rest: string, target: string)
    requires |root| > 0
    requires !Occurs(root, rest)
    ensures Replace(root + rest, root, target) == Success(target + rest)
  {
    assert (root + rest)[|root|..] == rest;
    ReplaceAbsent(rest, root, target);
  }

  /** Replacing with a non-empty value in a non-empty string never yields the empty string. */
  lemma ReplaceAllNonEmpty(s: string, pattern: string, replacement: string)
    requires |pattern| > 0 && |replacement| > 0 && |s| > 0
    ensures |ReplaceAll(s, pattern, replacement)| > 0
  {
  }

  /** A string in which the pattern never occurs is left as it is. */
  lemma {:induction false} ReplaceAbsent(s: string, pattern: string, replacement: string)
    requires |pattern| > 0
    requires !Occurs(pattern, s)
    ensures ReplaceAll(s, pattern, replacement) == s
    decreases |s|
  {
    if |s| > 0 {
      assert !OccursAt(pattern, s, 0);
      forall i | 0 <= i <= |s[1..]| - |pattern|
        ensures !OccursAt(pattern, s[1..], i)
      {
        assert !OccursAt(pattern, s, i + 1);
        assert s[1..][i..i + |pattern|] == s[i + 1..i + 1 + |pattern|];
      }
      ReplaceAbsent(s[1..], pattern, replacement);
      assert s == [s[0]] + s[1..];
    }
  }

  /** Index of the last '.' in `s`, or -1. */
  function LastDot(s: string): (k: int)
    ensures -1 <= k < |s|
    ensures k >= 0 ==> s[k] == '.'
    ensures forall j :: k < j < |s| ==> s[j] != '.'
    decreases |s|
  {
    if |s| == 0 then -1
    else if s[|s| - 1] == '.' then |s| - 1
    else LastDot(s[..|s| - 1])
  }

  /** `Path.GetExtension` of a bare file name: from the last '.' to the end,
      or empty when there is no '.' or the '.' is the final character. */
  function Extension(name: string): (e: string)
    ensures e == "" || (2 <= |e| <= |name| && e[0] == '.' && e == name[|name| - |e|..])
    ensures e != "" ==> forall j :: 1 <= j < |e| ==> e[j] != '.'
    ensures e == "" <==> '.' !in name || name[|name| - 1] == '.'
  {
    var k := LastDot(name);
    if k < 0 || k == |name| - 1 then "" else name[k..]
  }
}

=== FILE: wrappers.dfy ===
/** Failure-compatible wrappers: `Option` stands for the source's nullable
    values and `Result` for an operation that may throw. */
module Wrappers {

  datatype Option<+T> = None | Some(value: T)

  datatype Result<+R, +E> = Success(value: R) | Failure(error: E) {

    predicate IsFailure() {
      Failure?
    }

    function PropagateFailure<U>(): Result<U, E>
      requires Failure?
    {
      Failure(error)
    }

    function Extract(): R
      requires Success?
    {
      value
    }
  }
}
